=== FILE: README.md ===
# Offline Hindi voice assistant — dialog engine model

A Dafny model of the deterministic dialog engine inside the assistant's
Raspberry Pi script `code/main.py`. Under the audio and GPIO plumbing, the
script does five things:

- It classifies a recognised Hindi utterance into one of seventeen intents,
  or `UNKNOWN` (`get_intent`).
- It answers the utterance and updates a handful of module variables
  (`handle_intent`). This includes a three-turn calculator that reads
  numbers given as digits or as Hindi words from one to fifty.
- It greets the user on waking up according to the hour read from a DS1302
  real-time clock (`get_time_greeting`).
- It decodes and encodes the clock's BCD registers (`bcd_to_dec`,
  `dec_to_bcd`).
- It runs a main loop that wakes on a wake word, collects a command, commits
  it after 1.5 s of silence and falls asleep on `EXIT` or after 30 s idle.

Modules:

- `Wrappers`: `Option` and `Result`.
- `Text`: the string operations the script relies on.
  - Substring containment (`in`).
  - `str.split()` and `str.strip()` over Python's whitespace characters.
  - Decimal digits.
  - Integer rendering.
- `Bcd`: `bcd_to_dec`, `dec_to_bcd` and the decoding of the clock
  registers into a date and time.
- `Intents`: `get_intent` as the script writes it. It is also written as an
  ordered rule table evaluated first-match-wins, and the two are proved to
  agree.
- `Numbers`: the 1–50 lexicon and the extraction of the first number token
  of an utterance.
- `Dialog`: `handle_intent`. It is a pure function from intent, text, state
  and environment to a reply and a new state, or to the exception that
  would escape.
  - The environment supplies the clock registers (or a failed read) and the
    joke `random.choice` picks.
  - The LED is a boolean field.
- `Greeting`: the hour-to-greeting buckets.
- `MainLoop`: one iteration of the loop body after the recognizer.
  - It is a pure transition producing the new session, the list of things
    spoken and whether the recognizer was reset.
  - Clock readings are integer milliseconds passed in: `now` when the chunk
    is handled, `later` after a reply has been spoken.
- `Conversations`: whole exchanges on concrete Hindi utterances, stepped
  through the model.

Behaviour of `code/main.py` worth noting:

- Going to sleep does not reset the calculator or the joke state
  (`MainLoop.ExitKeepsCalculator`).
- `NETWORK_STATUS` and `SYSTEM_STATUS` are classified but have no branch in
  the handler, so they get the generic apology
  (`Dialog.StatusIntentsUnanswered`).
- Line 471 (the wake greeting) is indented with a mixture of spaces and a
  tab, which CPython rejects as inconsistent indentation. The model follows
  the evident intent: the greeting is spoken in the wake-word branch,
  right after waking.

## Model

| member | source | states |
|---|---|---|
| Text.Words | code/main.py:305 | `text.split()`: every element is a non-empty run of non-whitespace characters |
| Text.WordsEmpty | code/main.py:305 | splitting gives no words if and only if every character is whitespace |
| Text.WordsSkipSpaces | code/main.py:305 | leading whitespace of any length does not change the tokens |
| Text.WordsCons | code/main.py:305 | a token followed by whitespace is the first token of the split, and the split continues with the text after the whitespace |
| Text.WordsUnwords | code/main.py:348 | splitting the single-space join of a list of words gives the same list back |
| Text.Strip | code/main.py:458 | `strip()` yields an infix with non-whitespace ends whose removed prefix and suffix are whitespace only, empty exactly for all-whitespace text |
| Text.StripIdempotent | code/main.py:458 | stripping a stripped text changes nothing |
| Text.ContainsTransitive | code/main.py:467 | a text containing a word contains every substring of that word |
| Text.NatToString | code/main.py:290 | the decimal rendering of a natural is a digit string without a leading zero whose value is the number |
| Text.IntToString | code/main.py:393 | an integer is rendered with a minus sign exactly when negative, followed by its magnitude's digits |
| Text.NatToStringInjective | code/main.py:393 | distinct numbers are rendered differently |
| Bcd.BcdToDec | code/main.py:53-54 | the result is at most 165, and for a byte whose nibbles are both decimal digits it is at most 99 with the high nibble as tens and the low nibble as units |
| Bcd.DecToBcd | code/main.py:613-614 | the high nibble carries the tens and the low nibble the units; for values up to 99 the result is a valid BCD byte |
| Bcd.BcdRoundTrip | code/main.py:613-614 | decoding the encoding of any value from 0 to 99 gives the value back |
| Bcd.DecBcdRoundTrip | code/main.py:53-54 | encoding the decoding of a valid BCD byte gives the byte back |
| Bcd.BcdToDecInjective | code/main.py:53-54 | distinct valid BCD bytes decode to distinct values |
| Bcd.BcdToDecCollision | code/main.py:53-54 | on invalid bytes decoding is not injective: 0x0A and 0x10 both decode to 10 |
| Bcd.ReadTime | code/main.py:102-109 | hour, minute, second, day and month are the decoded registers, and the year is 2000 plus the decoded year register, so it lies between 2000 and 2165 |
| Bcd.SetThenReadTime | code/main.py:629-639 | registers written as the clock-setting script writes them (the year modulo 100) read back as the same date and time, for fields up to 99 and years 2000–2099 |
| Intents.GetIntent | code/main.py:209-262 | the if-chain of `get_intent`; its contract is stated by `GetIntentIsClassify` and `GetIntentFirstMatch` |
| Intents.GetIntentIsClassify | code/main.py:209-262 | the if-chain classifier equals first-match evaluation of the seventeen-rule table |
| Intents.ClassifyFirst | code/main.py:211-227 | first-match evaluation of the table tries the name, team, calculator, time and date rules in the source's order before the rest |
| Intents.ClassifyMiddle | code/main.py:229-245 | from the seventh rule on, greeting, status, about, joke, thanks and help are tried in the source's order before the rest |
| Intents.ClassifyLast | code/main.py:247-262 | from the thirteenth rule on, the light, network, system and exit rules are tried in the source's order, and `UNKNOWN` follows when none fires |
| Intents.FirstFiring | code/main.py:209-262 | finds the least index whose rule fires, and finds none exactly when no rule fires |
| Intents.RulesRanked | code/main.py:209-262 | the table has seventeen rules in the source's order, one per intent |
| Intents.GetIntentFirstMatch | code/main.py:209-262 | the classifier yields rule i's intent if and only if rule i fires and no earlier rule does |
| Intents.GetIntentUnknown | code/main.py:253-262 | `UNKNOWN` is returned if and only if no rule's keywords occur |
| Intents.UnknownWithoutKeywords | code/main.py:209-262 | a text containing none of the keywords is `UNKNOWN` |
| Intents.GetNameFirst | code/main.py:209-218 | any text containing "मेरा नाम क्या" is `GET_NAME`, whatever else it contains |
| Intents.LightNeedsBothWords | code/main.py:247-251 | `LIGHT_ON` / `LIGHT_OFF` only when "लाइट" and an on-word / off-word both occur |
| Intents.TeamKeywordSuffices | code/main.py:217-218 | the team rule fires exactly when "टीम" occurs |
| Numbers.Lexicon | code/main.py:270-281 | the fifty number words map into 1..50 |
| Numbers.LexiconCoversOneToFifty | code/main.py:270-281 | every value from 1 to 50 has a word that maps to it |
| Numbers.LexiconInjective | code/main.py:270-281 | no two words map to the same value |
| Numbers.NumberValues | code/main.py:347-352 | the values of the tokens that are digit strings or lexicon words; empty exactly when no token is one; the first element is the first such token's value |
| Numbers.FirstNumber | code/main.py:347-356 | no operand exactly when no word of the text is a number token |
| Numbers.FirstNumberIsFirstToken | code/main.py:347-362 | the operand is the value of the first number token |
| Numbers.FirstNumberOfWord | code/main.py:348-352 | a one-word utterance that is a number token yields its value |
| Numbers.ThreeParses | code/main.py:348-352 | the word "तीन" yields 3 |
| Numbers.DigitThreeParses | code/main.py:348-350 | the digit string "3" yields 3 |
| Dialog.OperatorOf | code/main.py:369-389 | each operator is chosen exactly when its keyword occurs and no earlier keyword does |
| Dialog.Operate | code/main.py:367-393 | no keyword gives "ऑपरेशन समझ नहीं आया" with the state unchanged; a computed answer ends the calculation; `%` by zero and a missing operand escape as exceptions |
| Dialog.CalculatorTurn | code/main.py:346-393 | steps 1 and 2 store the first number token and advance, and fall through without one; step 3 always answers |
| Dialog.EarlyReply | code/main.py:287-344 | the branches before the calculator block change only the name (on `SET_NAME`), the joke (on `JOKE`) or open the calculator (on `CALCULATE`) |
| Dialog.LateReply | code/main.py:346-406 | from the calculator block on, the name and joke are kept, only the light intents move the light, only an active calculation moves the calculator, and exceptions arise only at step 3; outside the calculator, or when it waits for a number and the text holds none, `LIGHT_ON` / `LIGHT_OFF` set / clear the light with their confirmations, `EXIT` says goodbye, and anything else gets "मुझे समझ नहीं आया", with the rest of the state unchanged |
| Dialog.TimeReply | code/main.py:290 | the spoken time: hour, minute and second in decimal |
| Dialog.DateReply | code/main.py:297 | the spoken date: day, month and year in decimal, joined by dashes |
| Dialog.ClockReplies | code/main.py:287-299 | `TIME` and `DATE` answer with the decoded clock reading, or with their own apology when the clock read fails, and leave the state unchanged |
| Dialog.FixedReplies | code/main.py:312-328 | `GET_NAME` and `GREETING` answer with the current name, `STATUS`, `ABOUT`, `THANKS` and `HELP` with their fixed sentences, and none changes the state |
| Dialog.HandleIntent | code/main.py:283-406 | each part of the state changes only on its own intent, and an exception escapes only from step 3 of the calculator for an intent not dispatched earlier |
| Dialog.HandleIntentKeepsValid | code/main.py:283-406 | the handler preserves the dialog invariant, under which, of the exceptions the model represents, only `%` by zero can escape |
| Dialog.EarlyReplyKeepsValid | code/main.py:287-344 | the branches before the calculator block preserve the dialog invariant |
| Dialog.LateReplyKeepsValid | code/main.py:346-406 | the branches from the calculator block on preserve the dialog invariant and, of the exceptions the model represents, raise only `%` by zero |
| Dialog.TeamNameWhileCalculating | code/main.py:301-302 | `TEAM_NAME` is answered with the team name and leaves every part of the state, the calculator's included, unchanged |
| Dialog.CalculatorNumberTurn | code/main.py:346-364 | at steps 1 and 2 the first number token becomes `num1` / `num2` and the step advances; without one the calculator state is unchanged |
| Dialog.CalculatorOperatorTurn | code/main.py:367-393 | at step 3 each keyword gives the sum, difference, product, quotient or remainder and resets the calculator; `%` by zero raises |
| Dialog.DivisionByZeroRefused | code/main.py:378-382 | "भाग" with `num2` zero answers "शून्य से भाग नहीं कर सकते" and resets `calc_mode` and `calc_step` |
| Dialog.UnknownOperatorRetries | code/main.py:388-389 | without an operator keyword the reply asks again and step 3 is kept |
| Dialog.SetNameRule | code/main.py:304-310 | fewer than four words keep the name and apologise; otherwise the third word becomes the name |
| Dialog.LightOnIdempotent | code/main.py:395-397 | switching the light on sets the flag, and doing so again changes nothing |
| Dialog.StatusIntentsUnanswered | code/main.py:395-406 | `NETWORK_STATUS` and `SYSTEM_STATUS` outside the calculator get "मुझे समझ नहीं आया" with the state unchanged |
| Greeting.DayPart | code/main.py:425-430 | morning exactly for hours 5–11, afternoon exactly for 12–16, evening for all others |
| Greeting.TimeGreeting | code/main.py:419-430 | "नमस्ते" exactly when the clock read fails, otherwise the day part of the decoded hour |
| MainLoop.WakeGreeting | code/main.py:469-471 | the wake greeting: the time-of-day greeting, the user's name and "बोलिए" |
| MainLoop.WakeWordIsSun | code/main.py:467 | a wake word occurs exactly when "सुन" occurs |
| MainLoop.SleepIfIdle | code/main.py:503-507 | after more than `ACTIVE_TIMEOUT` since the last interaction the session sleeps and forgets that time; otherwise it is unchanged |
| MainLoop.Commit | code/main.py:478-501 | every commit clears the pending text and its time and resets the recognizer; with a joke pending it succeeds exactly when a joke is stored, speaks the guess phrase and that joke's answer, and only ends joke mode, leaving the awake flag, the interaction time and the rest of the dialog state (name, light, calculator, stored joke) as they were without running the handler; otherwise it speaks the reply of `handle_intent` on the classified command, takes the handler's new state and fails exactly when the handler raises; `EXIT` puts the session to sleep, and any other intent leaves the awake flag as it was with the interaction time refreshed to the clock read after speaking |
| MainLoop.Step | code/main.py:456-507 | a blank result changes nothing, skipping even the silence and idle checks; asleep without a wake word nothing changes and nothing is spoken; a wake word wakes with one greeting; while awake an utterance becomes the pending command; silence commits; otherwise the idle check runs |
| MainLoop.StartIsValid | code/main.py:129-143 | the start-up variables satisfy the session invariant |
| MainLoop.StepKeepsInvariant | code/main.py:466-507 | every iteration preserves the session invariant, under which, of the exceptions the model represents, only `%` by zero can end the program |
| MainLoop.IdleSessionSleeps | code/main.py:503-507 | with nothing pending, more than `ACTIVE_TIMEOUT` idle puts the session to sleep silently |
| MainLoop.ExitKeepsCalculator | code/main.py:499-501 | at calculator step 1 or 2, an `EXIT` command without a number token is answered with goodbye, puts the session to sleep and leaves the calculator state as it was |
| MainLoop.JokeIsRevealedNextTurn | code/main.py:481-488 | after a joke is asked, the next utterance is answered, once the pause elapses, with the guess phrase and the same joke's answer, ending joke mode |
| Conversations.CalculateWordClassified | code/main.py:220-221 | "गणना" is `CALCULATE` |
| Conversations.AddWordClassified | code/main.py:209-262 | "जोड़" matches no rule |
| Conversations.DivideWordClassified | code/main.py:209-262 | "भाग" matches no rule |
| Conversations.SingleCharacterUnknown | code/main.py:209-262 | every one-character utterance is `UNKNOWN` |
| Conversations.DigitParses | code/main.py:349-350 | a one-digit utterance yields its digit |
| Conversations.CalculatorOpens | code/main.py:341-344 | "गणना" from the start state opens the calculator at step 1 |
| Conversations.DigitTurn | code/main.py:354-364 | a spoken digit during steps 1 and 2 is stored and the step advances |
| Conversations.AddTurn | code/main.py:367-393 | with operands 5 and 3, "जोड़" answers "उत्तर है 8" |
| Conversations.AdditionConversation | code/main.py:341-393 | "गणना", "5", "3", "जोड़" ends with "उत्तर है 8" and the calculator closed |
| Conversations.DivideByZeroTurn | code/main.py:378-382 | "भाग" with a zero divisor is refused |
| Conversations.DivisionByZeroConversation | code/main.py:341-382 | "गणना", "5", "0", "भाग" ends with the refusal and the calculator closed |
| Conversations.SetNameClassified | code/main.py:214-215 | "मेरा नाम राम है" is `SET_NAME` |
| Conversations.FourWords | code/main.py:305 | "मेरा नाम राम है" splits into its four words |
| Conversations.NameSetReplyForRam | code/main.py:309 | the confirmation for the name "राम" |
| Conversations.SetNameConversation | code/main.py:304-310 | "मेरा नाम राम है" sets the name to "राम" and confirms it |

## Left out

- Audio capture: the input stream, `callback`, `audio_queue` and the
  `is_speaking` gate. This is device I/O and producer/consumer concurrency;
  an iteration takes the recognizer's result as input.
- `downsample`: floating-point resampling.
- The Vosk model and recognizer. The finalised text is an input to `Step`,
  and `recognizer.Reset()` becomes a flag in the result.
- `speak`: the external text-to-speech processes. A spoken line is an
  element of the `spoken` list.
- The DS1302 bit-level protocol (`rtc_write_byte`, `rtc_read_byte`, the
  GPIO handling) and the clock test and set scripts appended to the file.
  Only the BCD arithmetic and the register decoding are modelled; a failed
  read is `None`.
- `load_user` and `save_user`: JSON file I/O. The name is the `userName`
  field; a failing save, which would raise, is not modelled.
- The LED hardware: a boolean field.
- `random.choice`: the joke index is an input.
- Dialog.CalculatorOperatorTurn: the value and rendering of the float
  quotient `num1 / num2` are not modelled. The reply is
  `SayQuotient(num1, num2)`, and only the zero-division guard is proved.
- Numbers.NumberValues: a digit is ASCII `0`–`9` only, while Python's
  `str.isdigit` also accepts other Unicode digits and superscripts.
- MainLoop.Step: `time.time()` is replaced by two integer millisecond
  readings per iteration: `now` at the top, and `later` after the reply.
  The readings at lines 479 and 504 are taken to equal one of these.
- MainLoop.Step: a timestamp of exactly 0 counts as set (`Some(0)`), while
  Python's truth tests at lines 478 and 503 treat 0 as unset. A command
  heard at clock reading 0 is committed by the model and never by Python.
  Clock readings are wall-clock seconds since 1970, so 0 does not occur.
- Dialog.HandleIntentKeepsValid: three uncaught exceptions of the calculator
  are not represented, so the claim that only `%` by zero escapes holds of
  the modelled exceptions only (likewise `Dialog.LateReplyKeepsValid` and
  `MainLoop.StepKeepsInvariant`). They are the `OverflowError` of the float
  quotient `num1 / num2` beyond float range (line 383); the `ValueError` of
  `int(word)` on a digit token longer than 4300 digits, CPython's
  integer-string limit since 3.11 (line 350); and the same `ValueError`
  when the answer rendered at line 393 has more than 4300 digits. Operands
  come from a speech recognizer, which does not produce numbers of
  hundreds of digits, and the limits belong to the interpreter, not to the
  program.
- Bcd.DecToBcd: for values above 99 the result is not a byte and is not
  reduced to one.
- MainLoop.Commit: with joke mode on and no current joke, Python speaks the
  guess phrase (line 482) before raising at line 483; the model's
  `Err(MissingJoke)` does not record that spoken line. No state reachable
  from start-up is in that case (`MainLoop.StepKeepsInvariant`).
- The printing of "Heard:" and "Sleeping..." to the console.

=== FILE: bcd.dfy ===
/**
 Binary-coded decimal conversions used with the DS1302 real-time clock:
 `bcd_to_dec` decodes a register byte read from the chip and `dec_to_bcd`
 encodes a value before it is written. The serial bit-banging itself is not
 modelled; a clock reading is the six register bytes it would return.
 */
module Bcd {

  /** A value read from an 8-bit register. */
  type Byte = x: int | 0 <= x < 256

  /** The high nibble (`b >> 4`). */
  function HighNibble(b: Byte): (h: nat)
    ensures h < 16
  {
    b / 16
  }

  /** The low nibble (`b & 0x0F`). */
  function LowNibble(b: Byte): (l: nat)
    ensures l < 16
  {
    b % 16
  }

  /** A byte holding two decimal digits, one per nibble. */
  predicate IsBcd(b: Byte) {
    HighNibble(b) <= 9 && LowNibble(b) <= 9
  }

  /** `bcd_to_dec`: tens taken from the high nibble, units from the low one. */
  function BcdToDec(b: Byte): (v: nat)
    ensures v % 10 == LowNibble(b) % 10
    ensures v <= 165
    ensures IsBcd(b) ==> v <= 99 && v / 10 == HighNibble(b) && v % 10 == LowNibble(b)
  {
    HighNibble(b) * 10 + LowNibble(b)
  }

  /** `dec_to_bcd`: the tens digit shifted into the high nibble plus the units
      digit. The result is unbounded like Python's integers; only arguments
      up to 99 fit a register byte. */
  function DecToBcd(v: nat): (b: nat)
    ensures b % 16 == v % 10
    ensures b / 16 == v / 10
    ensures v <= 99 ==> b < 256 && IsBcd(b)
  {
    (v / 10) * 16 + v % 10
  }

  /** Encoding then decoding any value 0..99 gives the value back. */
  lemma BcdRoundTrip(v: nat)
    requires v <= 99
    ensures BcdToDec(DecToBcd(v) as Byte) == v
  {
  }

  /** Decoding then encoding a well-formed BCD byte gives the byte back. */
  lemma DecBcdRoundTrip(b: Byte)
    requires IsBcd(b)
    ensures DecToBcd(BcdToDec(b)) == b
  {
  }

  /** Decoding is injective on well-formed BCD bytes. */
  lemma BcdToDecInjective(a: Byte, b: Byte)
    requires IsBcd(a) && IsBcd(b) && BcdToDec(a) == BcdToDec(b)
    ensures a == b
  {
    DecBcdRoundTrip(a);
    DecBcdRoundTrip(b);
  }

  /** Outside BCD, decoding is not injective: 0x0A and 0x10 both read as 10. */
  lemma BcdToDecCollision()
    ensures BcdToDec(0x0A) == BcdToDec(0x10) == 10
  {
  }

  /** The six clock registers as read in `rtc_read_time`, in read order. */
  datatype Registers = Registers(sec: Byte, minute: Byte, hour: Byte, date: Byte, month: Byte, year: Byte)

  /** A decoded reading `(h, m, s, d, mo, y)`. */
  datatype DateTime = DateTime(hour: nat, minute: nat, second: nat, day: nat, month: nat, year: nat)

  /** `rtc_read_time`'s decoding: each register through `bcd_to_dec`, the year
      offset by 2000. */
  function ReadTime(r: Registers): (t: DateTime)
    ensures t.hour == BcdToDec(r.hour) && t.minute == BcdToDec(r.minute)
    ensures t.second == BcdToDec(r.sec) && t.day == BcdToDec(r.date)
    ensures t.month == BcdToDec(r.month)
    ensures t.year == 2000 + BcdToDec(r.year)
    ensures 2000 <= t.year <= 2165
  {
    DateTime(BcdToDec(r.hour), BcdToDec(r.minute), BcdToDec(r.sec),
             BcdToDec(r.date), BcdToDec(r.month), 2000 + BcdToDec(r.year))
  }

  /** Registers written from a date-time value in the way `set_time` writes
      them (the year modulo 100); reading them back yields the same value. */
  lemma SetThenReadTime(h: nat, m: nat, s: nat, d: nat, mo: nat, y: nat)
    requires h <= 99 && m <= 99 && s <= 99 && d <= 99 && mo <= 99 && 2000 <= y <= 2099
    ensures ReadTime(Registers(DecToBcd(s), DecToBcd(m), DecToBcd(h), DecToBcd(d),
                               DecToBcd(mo), DecToBcd(y % 100)))
            == DateTime(h, m, s, d, mo, y)
  {
    BcdRoundTrip(h);
    BcdRoundTrip(m);
    BcdRoundTrip(s);
    BcdRoundTrip(d);
    BcdRoundTrip(mo);
    BcdRoundTrip(y % 100);
  }
}

=== FILE: conversations.dfy ===
/**
 Whole conversations with the calculator and the name rule, worked through
 the classifier and the handler turn by turn.
 */
module Conversations {
  import opened Wrappers
  import opened Text
  import opened Intents
  import opened Numbers
  import opened Dialog

  lemma CalculateWordClassified()
    ensures GetIntent("गणना") == Calculate
  {
    var t := "गणना";
    assert GetNameWords[0][0] == 'म';
    MissingCharExcludes(t, GetNameWords[0], 0);
    assert MyNameWords[0][0] == 'म';
    MissingCharExcludes(t, MyNameWords[0], 0);
    assert TeamWords[0][0] == 'ट';
    MissingCharExcludes(t, TeamWords[0], 0);
    assert TeamWords[1][0] == 'ट';
    MissingCharExcludes(t, TeamWords[1], 0);
    ContainsSelf(t);
    assert Contains(t, CalculateWords[0]);
  }

  /** "जोड़" holds none of the keywords of the first eight rules. */
  lemma AddWordMissesEarlyKeywords()
    ensures !ContainsAny("जोड़", GetNameWords)
    ensures !ContainsAny("जोड़", MyNameWords)
    ensures !ContainsAny("जोड़", TeamWords)
    ensures !ContainsAny("जोड़", CalculateWords)
    ensures !ContainsAny("जोड़", TimeWords)
    ensures !ContainsAny("जोड़", DateWords)
    ensures !ContainsAny("जोड़", GreetingWords)
    ensures !ContainsAny("जोड़", StatusWords)
  {
    var t := "जोड़";
    assert GetNameWords[0][0] == 'म';
    MissingCharExcludes(t, GetNameWords[0], 0);
    assert MyNameWords[0][0] == 'म';
    MissingCharExcludes(t, MyNameWords[0], 0);
    assert TeamWords[0][0] == 'ट';
    MissingCharExcludes(t, TeamWords[0], 0);
    assert TeamWords[1][0] == 'ट';
    MissingCharExcludes(t, TeamWords[1], 0);
    assert CalculateWords[0][0] == 'ग';
    MissingCharExcludes(t, CalculateWords[0], 0);
    assert CalculateWords[1][0] == 'क';
    MissingCharExcludes(t, CalculateWords[1], 0);
    assert TimeWords[0][0] == 'स';
    MissingCharExcludes(t, TimeWords[0], 0);
    assert TimeWords[1][0] == 'ट';
    MissingCharExcludes(t, TimeWords[1], 0);
    assert TimeWords[2][0] == 'व';
    MissingCharExcludes(t, TimeWords[2], 0);
    assert DateWords[0][0] == 'त';
    MissingCharExcludes(t, DateWords[0], 0);
    assert DateWords[1][0] == 'द';
    MissingCharExcludes(t, DateWords[1], 0);
    assert DateWords[2][0] == 'आ';
    MissingCharExcludes(t, DateWords[2], 0);
    assert GreetingWords[0][0] == 'न';
    MissingCharExcludes(t, GreetingWords[0], 0);
    assert GreetingWords[1][0] == 'ह';
    MissingCharExcludes(t, GreetingWords[1], 0);
    assert StatusWords[0][0] == 'क';
    MissingCharExcludes(t, StatusWords[0], 0);
    assert StatusWords[1][0] == 'ठ';
    MissingCharExcludes(t, StatusWords[1], 0);
  }

  /** "जोड़" holds none of the keywords of the remaining rules. */
  lemma AddWordMissesLateKeywords()
    ensures !ContainsAny("जोड़", AboutWords)
    ensures !ContainsAny("जोड़", JokeWords)
    ensures !ContainsAny("जोड़", ThanksWords)
    ensures !ContainsAny("जोड़", HelpWords)
    ensures !ContainsAny("जोड़", LightWords)
    ensures !ContainsAny("जोड़", NetworkWords)
    ensures !ContainsAny("जोड़", SystemStatusWords)
    ensures !ContainsAny("जोड़", ExitWords)
  {
    var t := "जोड़";
    assert AboutWords[0][0] == 'क';
    MissingCharExcludes(t, AboutWords[0], 0);
    assert AboutWords[1][0] == 'त';
    MissingCharExcludes(t, AboutWords[1], 0);
    assert JokeWords[0][0] == 'म';
    MissingCharExcludes(t, JokeWords[0], 0);
    assert JokeWords[1][2] == 'क';
    MissingCharExcludes(t, JokeWords[1], 2);
    assert ThanksWords[0][0] == 'ध';
    MissingCharExcludes(t, ThanksWords[0], 0);
    assert ThanksWords[1][0] == 'श';
    MissingCharExcludes(t, ThanksWords[1], 0);
    assert HelpWords[0][0] == 'म';
    MissingCharExcludes(t, HelpWords[0], 0);
    assert LightWords[0][0] == 'ल';
    MissingCharExcludes(t, LightWords[0], 0);
    assert NetworkWords[0][0] == 'न';
    MissingCharExcludes(t, NetworkWords[0], 0);
    assert NetworkWords[1][0] == 'व';
    MissingCharExcludes(t, NetworkWords[1], 0);
    assert SystemStatusWords[0][0] == 'स';
    MissingCharExcludes(t, SystemStatusWords[0], 0);
    assert ExitWords[0][0] == 'अ';
    MissingCharExcludes(t, ExitWords[0], 0);
    assert ExitWords[1][0] == 'र';
    MissingCharExcludes(t, ExitWords[1], 0);
    assert ExitWords[2][0] == 'स';
    MissingCharExcludes(t, ExitWords[2], 0);
  }

  lemma AddWordClassified()
    ensures GetIntent("जोड़") == Unknown
  {
    AddWordMissesEarlyKeywords();
    AddWordMissesLateKeywords();
    UnknownWithoutKeywords("जोड़");
  }

  /** "भाग" holds none of the keywords of the first eight rules. */
  lemma DivideWordMissesEarlyKeywords()
    ensures !ContainsAny("भाग", GetNameWords)
    ensures !ContainsAny("भाग", MyNameWords)
    ensures !ContainsAny("भाग", TeamWords)
    ensures !ContainsAny("भाग", CalculateWords)
    ensures !ContainsAny("भाग", TimeWords)
    ensures !ContainsAny("भाग", DateWords)
    ensures !ContainsAny("भाग", GreetingWords)
    ensures !ContainsAny("भाग", StatusWords)
  {
    var t := "भाग";
    assert GetNameWords[0][0] == 'म';
    MissingCharExcludes(t, GetNameWords[0], 0);
    assert MyNameWords[0][0] == 'म';
    MissingCharExcludes(t, MyNameWords[0], 0);
    assert TeamWords[0][0] == 'ट';
    MissingCharExcludes(t, TeamWords[0], 0);
    assert TeamWords[1][0] == 'ट';
    MissingCharExcludes(t, TeamWords[1], 0);
    assert CalculateWords[0][1] == 'ण';
    MissingCharExcludes(t, CalculateWords[0], 1);
    assert CalculateWords[1][0] == 'क';
    MissingCharExcludes(t, CalculateWords[1], 0);
    assert TimeWords[0][0] == 'स';
    MissingCharExcludes(t, TimeWords[0], 0);
    assert TimeWords[1][0] == 'ट';
    MissingCharExcludes(t, TimeWords[1], 0);
    assert TimeWords[2][0] == 'व';
    MissingCharExcludes(t, TimeWords[2], 0);
    assert DateWords[0][0] == 'त';
    MissingCharExcludes(t, DateWords[0], 0);
    assert DateWords[1][0] == 'द';
    MissingCharExcludes(t, DateWords[1], 0);
    assert DateWords[2][0] == 'आ';
    MissingCharExcludes(t, DateWords[2], 0);
    assert GreetingWords[0][0] == 'न';
    MissingCharExcludes(t, GreetingWords[0], 0);
    assert GreetingWords[1][0] == 'ह';
    MissingCharExcludes(t, GreetingWords[1], 0);
    assert StatusWords[0][0] == 'क';
    MissingCharExcludes(t, StatusWords[0], 0);
    assert StatusWords[1][0] == 'ठ';
    MissingCharExcludes(t, StatusWords[1], 0);
  }

  /** "भाग" holds none of the keywords of the remaining rules. */
  lemma DivideWordMissesLateKeywords()
    ensures !ContainsAny("भाग", AboutWords)
    ensures !ContainsAny("भाग", JokeWords)
    ensures !ContainsAny("भाग", ThanksWords)
    ensures !ContainsAny("भाग", HelpWords)
    ensures !ContainsAny("भाग", LightWords)
    ensures !ContainsAny("भाग", NetworkWords)
    ensures !ContainsAny("भाग", SystemStatusWords)
    ensures !ContainsAny("भाग", ExitWords)
  {
    var t := "भाग";
    assert AboutWords[0][0] == 'क';
    MissingCharExcludes(t, AboutWords[0], 0);
    assert AboutWords[1][0] == 'त';
    MissingCharExcludes(t, AboutWords[1], 0);
    assert JokeWords[0][0] == 'म';
    MissingCharExcludes(t, JokeWords[0], 0);
    assert JokeWords[1][0] == 'ज';
    MissingCharExcludes(t, JokeWords[1], 0);
    assert ThanksWords[0][0] == 'ध';
    MissingCharExcludes(t, ThanksWords[0], 0);
    assert ThanksWords[1][0] == 'श';
    MissingCharExcludes(t, ThanksWords[1], 0);
    assert HelpWords[0][0] == 'म';
    MissingCharExcludes(t, HelpWords[0], 0);
    assert LightWords[0][0] == 'ल';
    MissingCharExcludes(t, LightWords[0], 0);
    assert NetworkWords[0][0] == 'न';
    MissingCharExcludes(t, NetworkWords[0], 0);
    assert NetworkWords[1][0] == 'व';
    MissingCharExcludes(t, NetworkWords[1], 0);
    assert SystemStatusWords[0][0] == 'स';
    MissingCharExcludes(t, SystemStatusWords[0], 0);
    assert ExitWords[0][0] == 'अ';
    MissingCharExcludes(t, ExitWords[0], 0);
    assert ExitWords[1][0] == 'र';
    MissingCharExcludes(t, ExitWords[1], 0);
    assert ExitWords[2][0] == 'स';
    MissingCharExcludes(t, ExitWords[2], 0);
  }

  lemma DivideWordClassified()
    ensures GetIntent("भाग") == Unknown
  {
    DivideWordMissesEarlyKeywords();
    DivideWordMissesLateKeywords();
    UnknownWithoutKeywords("भाग");
  }

  /** Every keyword is at least two characters long, so a one-character
      utterance such as a single digit is classified `UNKNOWN`. */
  lemma SingleCharacterUnknown(t: string)
    requires |t| == 1
    ensures GetIntent(t) == Unknown
  {
    LongerWordsExcluded(t, GetNameWords);
    LongerWordsExcluded(t, MyNameWords);
    LongerWordsExcluded(t, TeamWords);
    LongerWordsExcluded(t, CalculateWords);
    LongerWordsExcluded(t, TimeWords);
    LongerWordsExcluded(t, DateWords);
    LongerWordsExcluded(t, GreetingWords);
    LongerWordsExcluded(t, StatusWords);
    LongerWordsExcluded(t, AboutWords);
    LongerWordsExcluded(t, JokeWords);
    LongerWordsExcluded(t, ThanksWords);
    LongerWordsExcluded(t, HelpWords);
    LongerWordsExcluded(t, LightWords);
    LongerWordsExcluded(t, NetworkWords);
    LongerWordsExcluded(t, SystemStatusWords);
    LongerWordsExcluded(t, ExitWords);
    UnknownWithoutKeywords(t);
  }

  lemma DigitParses(w: string, n: nat)
    requires |w| == 1 && IsDigit(w[0]) && DigitValue(w[0]) == n
    ensures FirstNumber(w) == Some(n)
  {
    assert w[..0] == [];
    assert DigitsValue(w) == n;
    FirstNumberOfWord(w);
  }

  /** Saying "गणना" opens the calculator at its first step. */
  lemma CalculatorOpens(env: Env)
    requires env.jokePick < |Jokes|
    ensures HandleIntent(GetIntent("गणना"), "गणना", Initial, env)
            == Ok(Handled(Say(FirstNumberPrompt), Initial.(calcMode := true, calcStep := 1)))
  {
    CalculateWordClassified();
  }

  /** A single spoken digit during the number steps is stored as the next
      operand. */
  lemma DigitTurn(d: string, n: nat, st: State, env: Env)
    requires env.jokePick < |Jokes|
    requires |d| == 1 && IsDigit(d[0]) && DigitValue(d[0]) == n
    requires st.calcMode && (st.calcStep == 1 || st.calcStep == 2)
    ensures st.calcStep == 1 ==>
              HandleIntent(GetIntent(d), d, st, env)
              == Ok(Handled(Say(SecondNumberPrompt), st.(num1 := Some(n), calcStep := 2)))
    ensures st.calcStep == 2 ==>
              HandleIntent(GetIntent(d), d, st, env)
              == Ok(Handled(Say(OperatorPrompt), st.(num2 := Some(n), calcStep := 3)))
  {
    SingleCharacterUnknown(d);
    DigitParses(d, n);
    CalculatorNumberTurn(Unknown, d, st, env);
  }

  /** With operands 5 and 3 stored, "जोड़" answers "उत्तर है 8". */
  lemma AddTurn(st: State, env: Env)
    requires env.jokePick < |Jokes|
    requires st.calcMode && st.calcStep == 3 && st.num1 == Some(5) && st.num2 == Some(3)
    ensures HandleIntent(GetIntent("जोड़"), "जोड़", st, env)
            == Ok(Handled(Say("उत्तर है 8"), Finished(st)))
  {
    AddWordClassified();
    assert OperatorOf("जोड़") == Some(Add) by { ContainsSelf("जोड़"); }
    CalculatorOperatorTurn(Unknown, "जोड़", st, env);
    assert "उत्तर है " + IntToString(8) == "उत्तर है 8";
  }

  /** "गणना", "5", "3", "जोड़": the calculator asks for two numbers and an
      operator and answers "उत्तर है 8", ending the calculation. */
  lemma AdditionConversation(env: Env)
    requires env.jokePick < |Jokes|
    ensures var r1 := HandleIntent(GetIntent("गणना"), "गणना", Initial, env);
            && r1 == Ok(Handled(Say(FirstNumberPrompt), Initial.(calcMode := true, calcStep := 1)))
            && var r2 := HandleIntent(GetIntent("5"), "5", r1.value.state, env);
               && r2.Ok? && r2.value.reply == Say(SecondNumberPrompt)
               && var r3 := HandleIntent(GetIntent("3"), "3", r2.value.state, env);
                  && r3.Ok? && r3.value.reply == Say(OperatorPrompt)
                  && var r4 := HandleIntent(GetIntent("जोड़"), "जोड़", r3.value.state, env);
                     && r4.Ok? && r4.value.reply == Say("उत्तर है 8")
                     && !r4.value.state.calcMode && r4.value.state.calcStep == 0
  {
    CalculatorOpens(env);
    var st1 := Initial.(calcMode := true, calcStep := 1);
    DigitTurn("5", 5, st1, env);
    var st2 := st1.(num1 := Some(5), calcStep := 2);
    DigitTurn("3", 3, st2, env);
    var st3 := st2.(num2 := Some(3), calcStep := 3);
    AddTurn(st3, env);
  }

  lemma DivideByZeroTurn(st: State, env: Env)
    requires env.jokePick < |Jokes|
    requires st.calcMode && st.calcStep == 3 && st.num2 == Some(0)
    ensures HandleIntent(GetIntent("भाग"), "भाग", st, env)
            == Ok(Handled(Say("शून्य से भाग नहीं कर सकते"), Finished(st)))
  {
    DivideWordClassified();
    var t := "भाग";
    ContainsSelf(t);
    MissingCharExcludes(t, "जोड़", 0);
    MissingCharExcludes(t, "घट", 0);
    MissingCharExcludes(t, "गुणा", 1);
    DivisionByZeroRefused(Unknown, t, st, env);
  }

  /** "गणना", "5", "0", "भाग": division by zero is refused and the calculator
      returns to step 0. */
  lemma DivisionByZeroConversation(env: Env)
    requires env.jokePick < |Jokes|
    ensures var r1 := HandleIntent(GetIntent("गणना"), "गणना", Initial, env);
            && r1.Ok?
            && var r2 := HandleIntent(GetIntent("5"), "5", r1.value.state, env);
               && r2.Ok?
               && var r3 := HandleIntent(GetIntent("0"), "0", r2.value.state, env);
                  && r3.Ok?
                  && var r4 := HandleIntent(GetIntent("भाग"), "भाग", r3.value.state, env);
                     && r4.Ok? && r4.value.reply == Say("शून्य से भाग नहीं कर सकते")
                     && !r4.value.state.calcMode && r4.value.state.calcStep == 0
  {
    CalculatorOpens(env);
    var st1 := Initial.(calcMode := true, calcStep := 1);
    DigitTurn("5", 5, st1, env);
    var st2 := st1.(num1 := Some(5), calcStep := 2);
    DigitTurn("0", 0, st2, env);
    var st3 := st2.(num2 := Some(0), calcStep := 3);
    DivideByZeroTurn(st3, env);
  }

  lemma SetNameClassified()
    ensures GetIntent("मेरा नाम राम है") == SetName
  {
    var t := "मेरा नाम राम है";
    assert GetNameWords[0][9] == 'क';
    MissingCharExcludes(t, GetNameWords[0], 9);
    assert OccursAt(t, MyNameWords[0], 0);
    assert OccursAt(t, IsWords[0], 13);
  }

  lemma FourWords()
    ensures Words("मेरा नाम राम है") == ["मेरा", "नाम", "राम", "है"]
  {
    var ws := ["मेरा", "नाम", "राम", "है"];
    assert Unwords(ws[3..]) == "है";
    assert Unwords(ws[2..]) == "राम है";
    assert Unwords(ws[1..]) == "नाम राम है";
    assert Unwords(ws) == "मेरा नाम राम है";
    WordsUnwords(ws);
  }

  lemma NameSetReplyForRam()
    ensures NameSetReply("राम") == "ठीक है, आपका नाम राम सेट कर दिया गया है"
  {
  }

  /** "मेरा नाम राम है" is a `SET_NAME` command with four words, and the third
      one, "राम", becomes the user's name. */
  lemma SetNameConversation(st: State, env: Env)
    requires env.jokePick < |Jokes|
    ensures GetIntent("मेरा नाम राम है") == SetName
    ensures HandleIntent(SetName, "मेरा नाम राम है", st, env)
            == Ok(Handled(Say("ठीक है, आपका नाम राम सेट कर दिया गया है"), st.(userName := "राम")))
  {
    SetNameClassified();
    var t := "मेरा नाम राम है";
    FourWords();
    assert |Words(t)| == 4 && Words(t)[2] == "राम";
    SetNameRule(t, st, env);
    NameSetReplyForRam();
  }
}

=== FILE: dialog.dfy ===
/**
 The intent handler (`handle_intent`) with its two sub-dialogues: the
 calculator, which collects two numbers and an operator over three turns,
 and the joke, whose answer the session step reveals on the next turn.
 The dialog state is the set of module variables the handler rewrites; the
 light is a flag standing for the LED, and the clock and the joke choice
 arrive as an environment value.
 */
module Dialog {
  import opened Wrappers
  import opened Text
  import opened Bcd
  import opened Intents
  import opened Numbers

  /** A joke: the question asked, and the answer revealed afterwards. */
  datatype JokeCard = JokeCard(question: string, answer: string)

  const Jokes: seq<JokeCard> := [
    JokeCard("कंप्यूटर डॉक्टर के पास क्यों गया", "क्योंकि उसे वायरस हो गया था"),
    JokeCard("प्रोग्रामर को कॉफी क्यों पसंद है", "क्योंकि वह डिबग करता है")
  ]

  const OurTeam: string := "Idea Igniters"
  const DefaultUserName: string := "Lakshman"

  /** What the assistant says. `SayQuotient(a, b)` is `"उत्तर है "` followed by
      Python's rendering of the float `a / b`. */
  datatype Speech = Say(text: string) | SayQuotient(dividend: nat, divisor: nat)

  /** The module variables `handle_intent` reads and writes. */
  datatype State = State(
    userName: string,
    jokeMode: bool,
    currentJoke: Option<JokeCard>,
    calcMode: bool,
    calcStep: nat,
    num1: Option<nat>,
    num2: Option<nat>,
    led: bool)

  /** The state at start-up, before any saved name is loaded. */
  const Initial: State := State(DefaultUserName, false, None, false, 0, None, None, false)

  /** An exception nothing catches, which ends the program:
      `ZeroDivisionError` from `%`, a `TypeError` from arithmetic on an
      operand that is `None`, or one from reading the answer of a joke that
      is `None`. In the last case Python has already spoken the guess
      phrase when it raises; `MissingJoke` does not record that line. No
      state reachable from start-up raises it. Exceptions that only
      numbers of thousands of digits can cause (float overflow in `/`,
      CPython's limit on integer-string conversion) are not represented. */
  datatype Fault = ModuloByZero | MissingOperand | MissingJoke

  /** Inputs from outside the program: the clock registers (`None` when the
      read raises) and the index `random.choice` picks among the jokes. */
  datatype Env = Env(clock: Option<Registers>, jokePick: nat)

  datatype Handled = Handled(reply: Speech, state: State)

  /** The invariant every reachable dialog state keeps. */
  predicate Valid(st: State) {
    && st.calcStep <= 3
    && (st.calcMode <==> st.calcStep != 0)
    && (st.calcStep >= 2 ==> st.num1.Some?)
    && (st.calcStep == 3 ==> st.num2.Some?)
    && (st.jokeMode ==> st.currentJoke.Some?)
  }

  /** The intents answered before the calculator gets to see the text. */
  predicate AnsweredBeforeCalculator(i: Intent) {
    i in {Time, Date, TeamName, SetName, GetName, Greeting, Status, About, Thanks, Help, Joke, Calculate}
  }

  /** The calculator's part of the state. */
  function CalcPart(st: State): (bool, nat, Option<nat>, Option<nat>) {
    (st.calcMode, st.calcStep, st.num1, st.num2)
  }

  // Fixed replies.
  const TimeFailed: string := "समय पढ़ने में समस्या आ रही है"
  const DateFailed: string := "तारीख पढ़ने में समस्या आ रही है"
  const NameNotUnderstood: string := "मैं आपका नाम समझ नहीं पाया"
  const StatusReply: string := "मैं ठीक हूँ धन्यवाद"
  const AboutReply: string := "मैं आपका ऑफलाइन हिंदी वॉइस असिस्टेंट हूँ"
  const ThanksReply: string := "आपका स्वागत है"
  const HelpReply: string := "आप समय, तारीख, लाइट कंट्रोल, नाम सेट, टीम नाम, सिस्टम स्टेटस, मजाक या गणना कर सकते हैं"
  const FirstNumberPrompt: string := "पहली संख्या बताइए"
  const SecondNumberPrompt: string := "दूसरी संख्या बताइए"
  const OperatorPrompt: string := "कौन सा ऑपरेशन करना है"
  const DivideByZeroReply: string := "शून्य से भाग नहीं कर सकते"
  const UnknownOperatorReply: string := "ऑपरेशन समझ नहीं आया"
  const AnswerPrefix: string := "उत्तर है "
  const LightOnReply: string := "लाइट चालू कर दी गई है"
  const LightOffReply: string := "लाइट बंद कर दी गई है"
  const ExitReply: string := "ठीक है, मैं सो रहा हूँ"
  const NotUnderstood: string := "मुझे समझ नहीं आया"

  function TimeReply(t: DateTime): string {
    "अभी समय है " + NatToString(t.hour) + " बजकर " + NatToString(t.minute)
      + " मिनट " + NatToString(t.second) + " सेकंड"
  }

  function DateReply(t: DateTime): string {
    "आज की तारीख है " + NatToString(t.day) + "-" + NatToString(t.month) + "-" + NatToString(t.year)
  }

  function NameSetReply(name: string): string {
    "ठीक है, आपका नाम " + name + " सेट कर दिया गया है"
  }

  // ---------------------------------------------------------------------
  // The calculator
  // ---------------------------------------------------------------------

  datatype Op = Add | Subtract | Multiply | Divide | Modulo

  /** The operator of the final calculator turn; keywords are tried in the
      order add, subtract, multiply, divide, modulo. */
  function OperatorOf(text: string): (o: Option<Op>)
    ensures o == Some(Add) <==> Contains(text, "जोड़")
    ensures o == Some(Subtract) <==> !Contains(text, "जोड़") && Contains(text, "घट")
    ensures o == Some(Multiply) <==>
              !Contains(text, "जोड़") && !Contains(text, "घट") && Contains(text, "गुणा")
    ensures o == Some(Divide) <==>
              !Contains(text, "जोड़") && !Contains(text, "घट") && !Contains(text, "गुणा")
              && Contains(text, "भाग")
    ensures o == Some(Modulo) <==>
              !Contains(text, "जोड़") && !Contains(text, "घट") && !Contains(text, "गुणा")
              && !Contains(text, "भाग") && Contains(text, "मॉड")
  {
    if Contains(text, "जोड़") then Some(Add)
    else if Contains(text, "घट") then Some(Subtract)
    else if Contains(text, "गुणा") then Some(Multiply)
    else if Contains(text, "भाग") then Some(Divide)
    else if Contains(text, "मॉड") then Some(Modulo)
    else None
  }

  /** The calculator's state once a computation is over. */
  function Finished(st: State): State {
    st.(calcMode := false, calcStep := 0)
  }

  function Answer(v: int): Speech {
    Say(AnswerPrefix + IntToString(v))
  }

  /** Step 3: apply the operator named in `text` to the stored operands. */
  function Operate(text: string, st: State): (r: Result<Handled, Fault>)
    ensures OperatorOf(text).None? ==> r == Ok(Handled(Say(UnknownOperatorReply), st))
    ensures OperatorOf(text).Some? && r.Ok? ==> r.value.state == Finished(st)
    ensures r == Err(ModuloByZero) ==> OperatorOf(text) == Some(Modulo) && st.num2 == Some(0)
    ensures r == Err(MissingOperand) ==> OperatorOf(text).Some? && (st.num1.None? || st.num2.None?)
  {
    var op := OperatorOf(text);
    if op.None? then Ok(Handled(Say(UnknownOperatorReply), st))
    else if op == Some(Divide) && st.num2 == Some(0) then
      Ok(Handled(Say(DivideByZeroReply), Finished(st)))
    else if st.num1.None? || st.num2.None? then Err(MissingOperand)
    else
      var a := st.num1.value;
      var b := st.num2.value;
      if op == Some(Divide) then Ok(Handled(SayQuotient(a, b), Finished(st)))
      else if op == Some(Modulo) then
        if b == 0 then Err(ModuloByZero) else Ok(Handled(Answer(a % b), Finished(st)))
      else if op == Some(Add) then Ok(Handled(Answer(a + b), Finished(st)))
      else if op == Some(Subtract) then Ok(Handled(Answer(a - b), Finished(st)))
      else Ok(Handled(Answer(a * b), Finished(st)))
  }

  /** The `if calc_mode:` block: `None` when it falls through without returning. */
  function CalculatorTurn(text: string, st: State): (o: Option<Result<Handled, Fault>>)
    requires st.calcMode
    ensures o.None? ==> st.calcStep != 3 && (st.calcStep in {1, 2} ==> FirstNumber(text).None?)
    ensures o.Some? && st.calcStep == 1 ==>
              o.value == Ok(Handled(Say(SecondNumberPrompt), st.(num1 := FirstNumber(text), calcStep := 2)))
              && FirstNumber(text).Some?
    ensures o.Some? && st.calcStep == 2 ==>
              o.value == Ok(Handled(Say(OperatorPrompt), st.(num2 := FirstNumber(text), calcStep := 3)))
              && FirstNumber(text).Some?
    ensures o.Some? ==> st.calcStep in {1, 2, 3}
  {
    var n := FirstNumber(text);
    if st.calcStep == 1 && n.Some? then
      Some(Ok(Handled(Say(SecondNumberPrompt), st.(num1 := n, calcStep := 2))))
    else if st.calcStep == 2 && n.Some? then
      Some(Ok(Handled(Say(OperatorPrompt), st.(num2 := n, calcStep := 3))))
    else if st.calcStep == 3 then
      Some(Operate(text, st))
    else None
  }

  // ---------------------------------------------------------------------
  // handle_intent
  // ---------------------------------------------------------------------

  /** The branches of `handle_intent` that come before the calculator block. */
  function EarlyReply(intent: Intent, text: string, st: State, env: Env): (h: Handled)
    requires AnsweredBeforeCalculator(intent)
    requires env.jokePick < |Jokes|
    ensures h.state.userName != st.userName ==> intent == SetName
    ensures h.state.led == st.led
    ensures h.state.jokeMode != st.jokeMode || h.state.currentJoke != st.currentJoke ==> intent == Joke
    ensures intent != Calculate ==> CalcPart(h.state) == CalcPart(st)
    ensures intent == Calculate ==>
              h.state == st.(calcMode := true, calcStep := 1) && h.reply == Say(FirstNumberPrompt)
    ensures intent == Joke ==>
              h.state == st.(jokeMode := true, currentJoke := Some(Jokes[env.jokePick]))
              && h.reply == Say(Jokes[env.jokePick].question)
  {
    match intent
    case Time =>
      Handled(Say(if env.clock.None? then TimeFailed else TimeReply(ReadTime(env.clock.value))), st)
    case Date =>
      Handled(Say(if env.clock.None? then DateFailed else DateReply(ReadTime(env.clock.value))), st)
    case TeamName => Handled(Say("हमारी टीम का नाम " + OurTeam + " है"), st)
    case SetName =>
      var words := Words(text);
      if |words| >= 4 then Handled(Say(NameSetReply(words[2])), st.(userName := words[2]))
      else Handled(Say(NameNotUnderstood), st)
    case GetName => Handled(Say("आपका नाम " + st.userName + " है"), st)
    case Greeting => Handled(Say("नमस्ते " + st.userName), st)
    case Status => Handled(Say(StatusReply), st)
    case About => Handled(Say(AboutReply), st)
    case Thanks => Handled(Say(ThanksReply), st)
    case Help => Handled(Say(HelpReply), st)
    case Joke =>
      var j := Jokes[env.jokePick];
      Handled(Say(j.question), st.(jokeMode := true, currentJoke := Some(j)))
    case Calculate => Handled(Say(FirstNumberPrompt), st.(calcMode := true, calcStep := 1))
  }

  /** The calculator leaves the text to the branches after it: it is off, or
      it waits for a number and the text holds none. */
  predicate CalculatorPasses(text: string, st: State) {
    !st.calcMode || (st.calcStep in {1, 2} && FirstNumber(text).None?)
  }

  /** The branches of `handle_intent` from the calculator block on. */
  function LateReply(intent: Intent, text: string, st: State): (r: Result<Handled, Fault>)
    requires !AnsweredBeforeCalculator(intent)
    ensures r.Err? ==> st.calcMode && st.calcStep == 3
    ensures r.Ok? ==> r.value.state.userName == st.userName
    ensures r.Ok? && r.value.state.led != st.led ==> intent in {LightOn, LightOff}
    ensures r.Ok? ==> r.value.state.jokeMode == st.jokeMode && r.value.state.currentJoke == st.currentJoke
    ensures r.Ok? && CalcPart(r.value.state) != CalcPart(st) ==> st.calcMode
    ensures CalculatorPasses(text, st) && intent == LightOn ==> r == Ok(Handled(Say(LightOnReply), st.(led := true)))
    ensures CalculatorPasses(text, st) && intent == LightOff ==> r == Ok(Handled(Say(LightOffReply), st.(led := false)))
    ensures CalculatorPasses(text, st) && intent == Exit ==> r == Ok(Handled(Say(ExitReply), st))
    ensures CalculatorPasses(text, st) && intent !in {LightOn, LightOff, Exit} ==> r == Ok(Handled(Say(NotUnderstood), st))
  {
    var turn := if st.calcMode then CalculatorTurn(text, st) else None;
    if turn.Some? then turn.value
    else if intent == LightOn then Ok(Handled(Say(LightOnReply), st.(led := true)))
    else if intent == LightOff then Ok(Handled(Say(LightOffReply), st.(led := false)))
    else if intent == Exit then Ok(Handled(Say(ExitReply), st))
    else Ok(Handled(Say(NotUnderstood), st))
  }

  /** `handle_intent(intent, text)`: the reply and the new state, or the
      exception that escapes. */
  function HandleIntent(intent: Intent, text: string, st: State, env: Env): (r: Result<Handled, Fault>)
    requires env.jokePick < |Jokes|
    ensures r.Err? ==> st.calcMode && st.calcStep == 3 && !AnsweredBeforeCalculator(intent)
    ensures r.Ok? && r.value.state.userName != st.userName ==> intent == SetName
    ensures r.Ok? && r.value.state.led != st.led ==> intent in {LightOn, LightOff}
    ensures r.Ok? && r.value.state.jokeMode != st.jokeMode ==> intent == Joke
    ensures r.Ok? && r.value.state.currentJoke != st.currentJoke ==> intent == Joke
    ensures r.Ok? && CalcPart(r.value.state) != CalcPart(st) ==>
              intent == Calculate || (st.calcMode && !AnsweredBeforeCalculator(intent))
  {
    if AnsweredBeforeCalculator(intent) then Ok(EarlyReply(intent, text, st, env))
    else LateReply(intent, text, st)
  }

  // ---------------------------------------------------------------------
  // Properties of the handler
  // ---------------------------------------------------------------------

  /** Every branch keeps the dialog invariant, and on a state that keeps it
      the only modelled exception that can escape is `%` by zero. */
  lemma HandleIntentKeepsValid(intent: Intent, text: string, st: State, env: Env)
    requires env.jokePick < |Jokes|
    requires Valid(st)
    ensures HandleIntent(intent, text, st, env).Ok? ==> Valid(HandleIntent(intent, text, st, env).value.state)
    ensures HandleIntent(intent, text, st, env).Err? ==> HandleIntent(intent, text, st, env).error == ModuloByZero
  {
    if AnsweredBeforeCalculator(intent) {
      EarlyReplyKeepsValid(intent, text, st, env);
    } else {
      LateReplyKeepsValid(intent, text, st);
    }
  }

  lemma EarlyReplyKeepsValid(intent: Intent, text: string, st: State, env: Env)
    requires AnsweredBeforeCalculator(intent) && env.jokePick < |Jokes|
    requires Valid(st)
    ensures Valid(EarlyReply(intent, text, st, env).state)
  {
  }

  lemma LateReplyKeepsValid(intent: Intent, text: string, st: State)
    requires !AnsweredBeforeCalculator(intent)
    requires Valid(st)
    ensures LateReply(intent, text, st).Ok? ==> Valid(LateReply(intent, text, st).value.state)
    ensures LateReply(intent, text, st).Err? ==> LateReply(intent, text, st).error == ModuloByZero
  {
    if st.calcMode {
      var turn := CalculatorTurn(text, st);
      if turn.Some? && st.calcStep == 3 {
        assert turn.value == Operate(text, st);
      }
    }
  }

  /** The clock intents: the decoded reading, or a fixed apology when the
      clock cannot be read; the state is left as it was. */
  lemma ClockReplies(text: string, st: State, env: Env)
    requires env.jokePick < |Jokes|
    ensures env.clock.None? ==> HandleIntent(Time, text, st, env) == Ok(Handled(Say(TimeFailed), st))
    ensures env.clock.None? ==> HandleIntent(Date, text, st, env) == Ok(Handled(Say(DateFailed), st))
    ensures env.clock.Some? ==>
              HandleIntent(Time, text, st, env) == Ok(Handled(Say(TimeReply(ReadTime(env.clock.value))), st))
    ensures env.clock.Some? ==>
              HandleIntent(Date, text, st, env) == Ok(Handled(Say(DateReply(ReadTime(env.clock.value))), st))
  {
  }

  /** The intents with a fixed or name-bearing answer reply with it, whatever
      the calculator is doing, and leave the state as it was. */
  lemma FixedReplies(text: string, st: State, env: Env)
    requires env.jokePick < |Jokes|
    ensures HandleIntent(GetName, text, st, env) == Ok(Handled(Say("आपका नाम " + st.userName + " है"), st))
    ensures HandleIntent(Greeting, text, st, env) == Ok(Handled(Say("नमस्ते " + st.userName), st))
    ensures HandleIntent(Status, text, st, env) == Ok(Handled(Say(StatusReply), st))
    ensures HandleIntent(About, text, st, env) == Ok(Handled(Say(AboutReply), st))
    ensures HandleIntent(Thanks, text, st, env) == Ok(Handled(Say(ThanksReply), st))
    ensures HandleIntent(Help, text, st, env) == Ok(Handled(Say(HelpReply), st))
  {
  }

  /** Intents dispatched before the calculator block are answered as such
      even mid-calculation; the team name, for one, is answered while the
      calculator state stays exactly as it was. */
  lemma TeamNameWhileCalculating(text: string, st: State, env: Env)
    requires env.jokePick < |Jokes|
    ensures HandleIntent(TeamName, text, st, env) == Ok(Handled(Say("हमारी टीम का नाम Idea Igniters है"), st))
  {
    assert "हमारी टीम का नाम " + OurTeam + " है" == "हमारी टीम का नाम Idea Igniters है";
  }

  /** A calculator turn waiting for a number: the first number token of the
      text becomes the operand and the step advances; without a number
      token the calculator state is untouched. */
  lemma CalculatorNumberTurn(intent: Intent, text: string, st: State, env: Env)
    requires env.jokePick < |Jokes|
    requires st.calcMode && !AnsweredBeforeCalculator(intent)
    requires st.calcStep == 1 || st.calcStep == 2
    ensures FirstNumber(text).Some? && st.calcStep == 1 ==>
              HandleIntent(intent, text, st, env)
              == Ok(Handled(Say(SecondNumberPrompt), st.(num1 := FirstNumber(text), calcStep := 2)))
    ensures FirstNumber(text).Some? && st.calcStep == 2 ==>
              HandleIntent(intent, text, st, env)
              == Ok(Handled(Say(OperatorPrompt), st.(num2 := FirstNumber(text), calcStep := 3)))
    ensures FirstNumber(text).None? ==>
              HandleIntent(intent, text, st, env).Ok?
              && CalcPart(HandleIntent(intent, text, st, env).value.state) == CalcPart(st)
  {
  }

  /** The operator turn of the calculator, for each keyword. */
  lemma CalculatorOperatorTurn(intent: Intent, text: string, st: State, env: Env)
    requires env.jokePick < |Jokes|
    requires st.calcMode && st.calcStep == 3 && !AnsweredBeforeCalculator(intent)
    requires st.num1.Some? && st.num2.Some?
    ensures var a, b := st.num1.value, st.num2.value;
            var r := HandleIntent(intent, text, st, env);
            && (OperatorOf(text) == Some(Add) ==> r == Ok(Handled(Say("उत्तर है " + IntToString(a + b)), Finished(st))))
            && (OperatorOf(text) == Some(Subtract) ==> r == Ok(Handled(Say("उत्तर है " + IntToString(a - b)), Finished(st))))
            && (OperatorOf(text) == Some(Multiply) ==> r == Ok(Handled(Say("उत्तर है " + IntToString(a * b)), Finished(st))))
            && (OperatorOf(text) == Some(Divide) && b != 0 ==> r == Ok(Handled(SayQuotient(a, b), Finished(st))))
            && (OperatorOf(text) == Some(Modulo) && b != 0 ==> r == Ok(Handled(Say("उत्तर है " + IntToString(a % b)), Finished(st))))
            && (OperatorOf(text) == Some(Modulo) && b == 0 ==> r == Err(ModuloByZero))
  {
    assert CalculatorTurn(text, st) == Some(Operate(text, st));
    assert HandleIntent(intent, text, st, env) == Operate(text, st);
  }

  /** Dividing by zero is refused and ends the calculation, whether or not a
      first operand is stored. */
  lemma DivisionByZeroRefused(intent: Intent, text: string, st: State, env: Env)
    requires env.jokePick < |Jokes|
    requires st.calcMode && st.calcStep == 3 && !AnsweredBeforeCalculator(intent)
    requires Contains(text, "भाग") && !Contains(text, "जोड़") && !Contains(text, "घट") && !Contains(text, "गुणा")
    requires st.num2 == Some(0)
    ensures HandleIntent(intent, text, st, env) == Ok(Handled(Say("शून्य से भाग नहीं कर सकते"), Finished(st)))
    ensures !Finished(st).calcMode && Finished(st).calcStep == 0
  {
  }

  /** Without an operator keyword the final turn asks again and the state,
      step 3 included, is unchanged. */
  lemma UnknownOperatorRetries(intent: Intent, text: string, st: State, env: Env)
    requires env.jokePick < |Jokes|
    requires st.calcMode && st.calcStep == 3 && !AnsweredBeforeCalculator(intent)
    requires !Contains(text, "जोड़") && !Contains(text, "घट") && !Contains(text, "गुणा")
    requires !Contains(text, "भाग") && !Contains(text, "मॉड")
    ensures HandleIntent(intent, text, st, env) == Ok(Handled(Say("ऑपरेशन समझ नहीं आया"), st))
  {
  }

  /** `SET_NAME` takes the third word as the name when there are at least
      four words, and otherwise leaves the name alone and apologises. */
  lemma SetNameRule(text: string, st: State, env: Env)
    requires env.jokePick < |Jokes|
    ensures |Words(text)| < 4 ==>
              HandleIntent(SetName, text, st, env) == Ok(Handled(Say("मैं आपका नाम समझ नहीं पाया"), st))
    ensures |Words(text)| >= 4 ==>
              HandleIntent(SetName, text, st, env)
              == Ok(Handled(Say(NameSetReply(Words(text)[2])), st.(userName := Words(text)[2])))
  {
  }

  /** Switching the light on twice has the effect of switching it on once. */
  lemma LightOnIdempotent(text: string, st: State, env: Env)
    requires env.jokePick < |Jokes|
    requires !st.calcMode
    ensures HandleIntent(LightOn, text, st, env).Ok?
    ensures HandleIntent(LightOn, text, st, env).value.state.led
    ensures var once := HandleIntent(LightOn, text, st, env).value.state;
            HandleIntent(LightOn, text, once, env) == Ok(Handled(Say(LightOnReply), once))
  {
  }

  /** The network and system status intents have no branch of their own:
      outside the calculator they get the generic apology. */
  lemma StatusIntentsUnanswered(intent: Intent, text: string, st: State, env: Env)
    requires env.jokePick < |Jokes|
    requires intent == NetworkStatus || intent == SystemStatus
    requires !st.calcMode
    ensures HandleIntent(intent, text, st, env) == Ok(Handled(Say("मुझे समझ नहीं आया"), st))
  {
  }
}

=== FILE: greeting.dfy ===
/**
 The wake-up greeting (`get_time_greeting`): a greeting for the part of
 the day the clock's hour falls in, or a plain hello when reading the clock
 fails.
 */
module Greeting {
  import opened Wrappers
  import opened Bcd

  const Morning: string := "सुप्रभात"
  const Afternoon: string := "शुभ दोपहर"
  const Evening: string := "शुभ संध्या"
  const Hello: string := "नमस्ते"

  /** The greeting for an hour: morning from 5 to before 12, afternoon from
      12 to before 17, evening for every other value. */
  function DayPart(hour: int): (g: string)
    ensures g == Morning <==> 5 <= hour < 12
    ensures g == Afternoon <==> 12 <= hour < 17
    ensures g == Evening <==> hour < 5 || 17 <= hour
  {
    if 5 <= hour < 12 then Morning
    else if 12 <= hour < 17 then Afternoon
    else Evening
  }

  /** `get_time_greeting()`, with the clock registers as input and `None`
      standing for a read that raised. */
  function TimeGreeting(clock: Option<Registers>): (g: string)
    ensures g == Hello <==> clock.None?
    ensures clock.Some? ==> g == DayPart(BcdToDec(clock.value.hour))
  {
    match clock
    case None => Hello
    case Some(regs) => DayPart(ReadTime(regs).hour)
  }
}

=== FILE: intents.dfy ===
/**
 The intent classifier (`get_intent`): an ordered list of keyword tests over
 the recognised utterance, the first one that holds deciding the intent.
 `GetIntent` follows the source's chain of `if` statements; `Rules` states
 the same policy as a data table, and `Classify` evaluates that table by
 first match. `GetIntentIsClassify` proves the two agree on every text.
 */
module Intents {
  import opened Wrappers
  import opened Text

  datatype Intent =
    | GetName | SetName | TeamName | Calculate | Time | Date | Greeting | Status
    | About | Joke | Thanks | Help | LightOn | LightOff | NetworkStatus
    | SystemStatus | Exit | Unknown

  // Keyword lists, in the order the source tests them.
  const GetNameWords: seq<string> := ["मेरा नाम क्या"]
  const MyNameWords: seq<string> := ["मेरा नाम"]
  const IsWords: seq<string> := ["है"]
  const TeamWords: seq<string> := ["टीम", "टीम का नाम"]
  const CalculateWords: seq<string> := ["गणना", "कैलकुलेट"]
  const TimeWords: seq<string> := ["समय", "टाइम", "वक्त"]
  const DateWords: seq<string> := ["तारीख", "दिनांक", "आज"]
  const GreetingWords: seq<string> := ["नमस्ते", "हेलो"]
  const StatusWords: seq<string> := ["कैसे", "ठीक"]
  const AboutWords: seq<string> := ["कौन", "तुम"]
  const JokeWords: seq<string> := ["मजाक", "जोक"]
  const ThanksWords: seq<string> := ["धन्यवाद", "शुक्रिया"]
  const HelpWords: seq<string> := ["मदद"]
  const LightWords: seq<string> := ["लाइट"]
  const OnWords: seq<string> := ["चालू", "ऑन"]
  const OffWords: seq<string> := ["बंद", "ऑफ"]
  const NetworkWords: seq<string> := ["नेटवर्क", "वाईफाई"]
  const SystemStatusWords: seq<string> := ["सिस्टम स्टेटस"]
  const ExitWords: seq<string> := ["अलविदा", "रुको", "स्टॉप"]

  /** `get_intent`, branch for branch. */
  function GetIntent(text: string): Intent {
    if ContainsAny(text, GetNameWords) then GetName
    else if ContainsAny(text, MyNameWords) && ContainsAny(text, IsWords) then SetName
    else if ContainsAny(text, TeamWords) then TeamName
    else if ContainsAny(text, CalculateWords) then Calculate
    else if ContainsAny(text, TimeWords) then Time
    else if ContainsAny(text, DateWords) then Date
    else if ContainsAny(text, GreetingWords) then Greeting
    else if ContainsAny(text, StatusWords) then Status
    else if ContainsAny(text, AboutWords) then About
    else if ContainsAny(text, JokeWords) then Joke
    else if ContainsAny(text, ThanksWords) then Thanks
    else if ContainsAny(text, HelpWords) then Help
    else if ContainsAny(text, LightWords) && ContainsAny(text, OnWords) then LightOn
    else if ContainsAny(text, LightWords) && ContainsAny(text, OffWords) then LightOff
    else if ContainsAny(text, NetworkWords) then NetworkStatus
    else if ContainsAny(text, SystemStatusWords) then SystemStatus
    else if ContainsAny(text, ExitWords) then Exit
    else Unknown
  }

  // ---------------------------------------------------------------------
  // The policy as an ordered rule table
  // ---------------------------------------------------------------------

  /** A rule fires when each of its clauses has at least one keyword in the text. */
  datatype Rule = Rule(clauses: seq<seq<string>>, intent: Intent)

  predicate Fires(r: Rule, text: string) {
    forall c :: 0 <= c < |r.clauses| ==> ContainsAny(text, r.clauses[c])
  }

  /** The rule at position `k` of the table, in the source's precedence order. */
  function RuleAt(k: nat): Rule
    requires k < 17
  {
    match k
    case 0 => Rule([GetNameWords], GetName)
    case 1 => Rule([MyNameWords, IsWords], SetName)
    case 2 => Rule([TeamWords], TeamName)
    case 3 => Rule([CalculateWords], Calculate)
    case 4 => Rule([TimeWords], Time)
    case 5 => Rule([DateWords], Date)
    case 6 => Rule([GreetingWords], Greeting)
    case 7 => Rule([StatusWords], Status)
    case 8 => Rule([AboutWords], About)
    case 9 => Rule([JokeWords], Joke)
    case 10 => Rule([ThanksWords], Thanks)
    case 11 => Rule([HelpWords], Help)
    case 12 => Rule([LightWords, OnWords], LightOn)
    case 13 => Rule([LightWords, OffWords], LightOff)
    case 14 => Rule([NetworkWords], NetworkStatus)
    case 15 => Rule([SystemStatusWords], SystemStatus)
    case _ => Rule([ExitWords], Exit)
  }

  /** The seventeen rules in precedence order; `Unknown` is what no rule yields. */
  const Rules: seq<Rule> := [
    RuleAt(0), RuleAt(1), RuleAt(2), RuleAt(3), RuleAt(4), RuleAt(5), RuleAt(6), RuleAt(7),
    RuleAt(8), RuleAt(9), RuleAt(10), RuleAt(11), RuleAt(12), RuleAt(13), RuleAt(14),
    RuleAt(15), RuleAt(16)
  ]

  /** The index of the first rule of `rules` at or after `k` that fires on
      `text`, if any. */
  function FirstFiring(rules: seq<Rule>, text: string, k: nat): (o: Option<nat>)
    requires k <= |rules|
    ensures o.Some? ==> k <= o.value < |rules| && Fires(rules[o.value], text)
    ensures o.Some? ==> forall j :: k <= j < o.value ==> !Fires(rules[j], text)
    ensures o.None? <==> forall j :: k <= j < |rules| ==> !Fires(rules[j], text)
    decreases |rules| - k
  {
    if k == |rules| then None
    else if Fires(rules[k], text) then Some(k)
    else FirstFiring(rules, text, k + 1)
  }

  /** The intent a search result stands for. */
  function IntentOf(o: Option<nat>): Intent
    requires o.Some? ==> o.value < |Rules|
  {
    match o
    case None => Unknown
    case Some(i) => Rules[i].intent
  }

  /** First-match evaluation of the rule table. */
  function Classify(text: string): Intent {
    IntentOf(FirstFiring(Rules, text, 0))
  }

  lemma FiresOneClause(r: Rule, text: string)
    requires |r.clauses| == 1
    ensures Fires(r, text) <==> ContainsAny(text, r.clauses[0])
  {
  }

  lemma FiresTwoClauses(r: Rule, text: string)
    requires |r.clauses| == 2
    ensures Fires(r, text) <==> ContainsAny(text, r.clauses[0]) && ContainsAny(text, r.clauses[1])
  {
  }

  /** The first-match search over rules 0 to 5 is the matching stretch of the
      chain of tests. */
  lemma ClassifyFirst(text: string)
    ensures Classify(text) ==
            if ContainsAny(text, GetNameWords) then GetName
            else if ContainsAny(text, MyNameWords) && ContainsAny(text, IsWords) then SetName
            else if ContainsAny(text, TeamWords) then TeamName
            else if ContainsAny(text, CalculateWords) then Calculate
            else if ContainsAny(text, TimeWords) then Time
            else if ContainsAny(text, DateWords) then Date
            else IntentOf(FirstFiring(Rules, text, 6))
  {
    FiresOneClause(Rules[0], text);
    FiresTwoClauses(Rules[1], text);
    FiresOneClause(Rules[2], text);
    FiresOneClause(Rules[3], text);
    FiresOneClause(Rules[4], text);
    FiresOneClause(Rules[5], text);
    assert FirstFiring(Rules, text, 5) == if Fires(Rules[5], text) then Some(5) else FirstFiring(Rules, text, 6);
    assert FirstFiring(Rules, text, 4) == if Fires(Rules[4], text) then Some(4) else FirstFiring(Rules, text, 5);
    assert FirstFiring(Rules, text, 3) == if Fires(Rules[3], text) then Some(3) else FirstFiring(Rules, text, 4);
    assert FirstFiring(Rules, text, 2) == if Fires(Rules[2], text) then Some(2) else FirstFiring(Rules, text, 3);
    assert FirstFiring(Rules, text, 1) == if Fires(Rules[1], text) then Some(1) else FirstFiring(Rules, text, 2);
    assert FirstFiring(Rules, text, 0) == if Fires(Rules[0], text) then Some(0) else FirstFiring(Rules, text, 1);
  }

  /** The first-match search over rules 6 to 11 is the matching stretch of the
      chain of tests. */
  lemma ClassifyMiddle(text: string)
    ensures IntentOf(FirstFiring(Rules, text, 6)) ==
            if ContainsAny(text, GreetingWords) then Greeting
            else if ContainsAny(text, StatusWords) then Status
            else if ContainsAny(text, AboutWords) then About
            else if ContainsAny(text, JokeWords) then Joke
            else if ContainsAny(text, ThanksWords) then Thanks
            else if ContainsAny(text, HelpWords) then Help
            else IntentOf(FirstFiring(Rules, text, 12))
  {
    FiresOneClause(Rules[6], text);
    FiresOneClause(Rules[7], text);
    FiresOneClause(Rules[8], text);
    FiresOneClause(Rules[9], text);
    FiresOneClause(Rules[10], text);
    FiresOneClause(Rules[11], text);
    assert FirstFiring(Rules, text, 11) == if Fires(Rules[11], text) then Some(11) else FirstFiring(Rules, text, 12);
    assert FirstFiring(Rules, text, 10) == if Fires(Rules[10], text) then Some(10) else FirstFiring(Rules, text, 11);
    assert FirstFiring(Rules, text, 9) == if Fires(Rules[9], text) then Some(9) else FirstFiring(Rules, text, 10);
    assert FirstFiring(Rules, text, 8) == if Fires(Rules[8], text) then Some(8) else FirstFiring(Rules, text, 9);
    assert FirstFiring(Rules, text, 7) == if Fires(Rules[7], text) then Some(7) else FirstFiring(Rules, text, 8);
    assert FirstFiring(Rules, text, 6) == if Fires(Rules[6], text) then Some(6) else FirstFiring(Rules, text, 7);
  }

  /** The first-match search over rules 12 to 16 is the matching stretch of the
      chain of tests. */
  lemma ClassifyLast(text: string)
    ensures IntentOf(FirstFiring(Rules, text, 12)) ==
            if ContainsAny(text, LightWords) && ContainsAny(text, OnWords) then LightOn
            else if ContainsAny(text, LightWords) && ContainsAny(text, OffWords) then LightOff
            else if ContainsAny(text, NetworkWords) then NetworkStatus
            else if ContainsAny(text, SystemStatusWords) then SystemStatus
            else if ContainsAny(text, ExitWords) then Exit
            else Unknown
  {
    FiresTwoClauses(Rules[12], text);
    FiresTwoClauses(Rules[13], text);
    FiresOneClause(Rules[14], text);
    FiresOneClause(Rules[15], text);
    FiresOneClause(Rules[16], text);
    assert FirstFiring(Rules, text, 17) == None;
    assert FirstFiring(Rules, text, 16) == if Fires(Rules[16], text) then Some(16) else FirstFiring(Rules, text, 17);
    assert FirstFiring(Rules, text, 15) == if Fires(Rules[15], text) then Some(15) else FirstFiring(Rules, text, 16);
    assert FirstFiring(Rules, text, 14) == if Fires(Rules[14], text) then Some(14) else FirstFiring(Rules, text, 15);
    assert FirstFiring(Rules, text, 13) == if Fires(Rules[13], text) then Some(13) else FirstFiring(Rules, text, 14);
    assert FirstFiring(Rules, text, 12) == if Fires(Rules[12], text) then Some(12) else FirstFiring(Rules, text, 13);
  }

  /** The source's chain of tests and first-match evaluation of the rule
      table agree on every text. */
  lemma GetIntentIsClassify(text: string)
    ensures GetIntent(text) == Classify(text)
  {
    ClassifyFirst(text);
    ClassifyMiddle(text);
    ClassifyLast(text);
  }

  // ---------------------------------------------------------------------
  // Properties of the policy
  // ---------------------------------------------------------------------

  /** Position of an intent's rule in the table; `Unknown` comes after all. */
  function RankOf(i: Intent): nat {
    match i
    case GetName => 0 case SetName => 1 case TeamName => 2 case Calculate => 3
    case Time => 4 case Date => 5 case Greeting => 6 case Status => 7
    case About => 8 case Joke => 9 case Thanks => 10 case Help => 11
    case LightOn => 12 case LightOff => 13 case NetworkStatus => 14
    case SystemStatus => 15 case Exit => 16 case Unknown => 17
  }

  /** Rule `i` of the table yields the intent of rank `i`, so every intent
      other than `Unknown` has exactly one rule. */
  lemma RulesRanked()
    ensures |Rules| == 17
    ensures forall i :: 0 <= i < |Rules| ==> RankOf(Rules[i].intent) == i
  {
  }

  /** First match wins: the classifier yields rule `i`'s intent exactly when
      rule `i` fires and no earlier rule does. */
  lemma GetIntentFirstMatch(text: string, i: nat)
    requires i < |Rules|
    ensures GetIntent(text) == Rules[i].intent <==>
              Fires(Rules[i], text) && forall j :: 0 <= j < i ==> !Fires(Rules[j], text)
  {
    GetIntentIsClassify(text);
    RulesRanked();
    var o := FirstFiring(Rules, text, 0);
    if GetIntent(text) == Rules[i].intent {
      assert o.Some? && RankOf(Rules[o.value].intent) == RankOf(Rules[i].intent);
    }
    if Fires(Rules[i], text) && forall j :: 0 <= j < i ==> !Fires(Rules[j], text) {
      assert o.Some?;
      assert o.value == i;
    }
  }

  /** `UNKNOWN` is answered exactly when no rule's keywords occur. */
  lemma GetIntentUnknown(text: string)
    ensures GetIntent(text) == Unknown <==> forall j :: 0 <= j < |Rules| ==> !Fires(Rules[j], text)
  {
    GetIntentIsClassify(text);
    RulesRanked();
    var o := FirstFiring(Rules, text, 0);
    if o.Some? {
      assert RankOf(Rules[o.value].intent) == o.value < 17;
    }
  }

  /** A text holding none of the keywords is `UNKNOWN`. */
  lemma UnknownWithoutKeywords(text: string)
    requires !ContainsAny(text, GetNameWords) && !ContainsAny(text, MyNameWords)
    requires !ContainsAny(text, TeamWords) && !ContainsAny(text, CalculateWords)
    requires !ContainsAny(text, TimeWords) && !ContainsAny(text, DateWords)
    requires !ContainsAny(text, GreetingWords) && !ContainsAny(text, StatusWords)
    requires !ContainsAny(text, AboutWords) && !ContainsAny(text, JokeWords)
    requires !ContainsAny(text, ThanksWords) && !ContainsAny(text, HelpWords)
    requires !ContainsAny(text, LightWords) && !ContainsAny(text, NetworkWords)
    requires !ContainsAny(text, SystemStatusWords) && !ContainsAny(text, ExitWords)
    ensures GetIntent(text) == Unknown
  {
  }

  /** Asking for the name wins over every other rule, whatever else the
      text holds (for instance the `है` of `SET_NAME` or a team keyword). */
  lemma GetNameFirst(text: string)
    requires Contains(text, "मेरा नाम क्या")
    ensures GetIntent(text) == GetName
  {
    assert GetNameWords[0] == "मेरा नाम क्या";
  }

  /** The light intents need the word for light and an on- or off-word. */
  lemma LightNeedsBothWords(text: string)
    ensures GetIntent(text) == LightOn ==>
              Contains(text, "लाइट") && (Contains(text, "चालू") || Contains(text, "ऑन"))
    ensures GetIntent(text) == LightOff ==>
              Contains(text, "लाइट") && (Contains(text, "बंद") || Contains(text, "ऑफ"))
  {
    if GetIntent(text) == LightOn || GetIntent(text) == LightOff {
      var k :| 0 <= k < |LightWords| && Contains(text, LightWords[k]);
      assert LightWords[k] == "लाइट";
    }
    if GetIntent(text) == LightOn {
      var k :| 0 <= k < |OnWords| && Contains(text, OnWords[k]);
      assert OnWords[k] == "चालू" || OnWords[k] == "ऑन";
    }
    if GetIntent(text) == LightOff {
      var k :| 0 <= k < |OffWords| && Contains(text, OffWords[k]);
      assert OffWords[k] == "बंद" || OffWords[k] == "ऑफ";
    }
  }

  /** The longer team keyword is redundant: the team rule fires exactly when
      `टीम` occurs. */
  lemma TeamKeywordSuffices(text: string)
    ensures ContainsAny(text, TeamWords) <==> Contains(text, "टीम")
  {
    if ContainsAny(text, TeamWords) {
      var k :| 0 <= k < |TeamWords| && Contains(text, TeamWords[k]);
      if k == 1 {
        assert "टीम का नाम" == "टीम" + " का नाम";
        ContainsParts("टीम", " का नाम");
        ContainsTransitive(text, "टीम का नाम", "टीम");
      }
    }
    if Contains(text, "टीम") {
      assert Contains(text, TeamWords[0]);
    }
  }
}

=== FILE: mainloop.dfy ===
/**
 One iteration of the main loop after the recognizer has (or has not)
 produced a final result: waking up on the wake word, recording a command,
 committing it after a pause, revealing a joke's answer, and going back to
 sleep on `EXIT` or after a long idle period. Speaking becomes a list of
 spoken items and `recognizer.Reset()` a flag; clock readings are integer
 milliseconds passed in.
 */
module MainLoop {
  import opened Wrappers
  import opened Text
  import opened Bcd
  import opened Intents
  import opened Numbers
  import opened Dialog
  import opened Greeting

  /** `SILENCE_TIMEOUT` (1.5 s) in milliseconds. */
  const SilenceTimeout: int := 1500
  /** `ACTIVE_TIMEOUT` (30 s) in milliseconds. */
  const ActiveTimeout: int := 30000

  const WakeWords: seq<string> := ["सुनो", "सुन", "सुनो जी"]
  const GuessPhrase: string := "अच्छा प्रयास, सही जवाब सुनिए"

  /** The loop's module variables. A timestamp of `None` is one Python
      treats as false. */
  datatype Session = Session(
    awake: bool,
    lastSpeech: Option<int>,
    lastInteraction: Option<int>,
    commandText: string,
    dialog: State)

  const Start: Session := Session(false, None, None, "", Initial)

  /** The outcome of one iteration: the new session, what was spoken in
      order, and whether the recognizer was reset. */
  datatype Turn = Turn(next: Session, spoken: seq<Speech>, reset: bool)

  /** What holds of every session the loop can reach from `Start`. */
  predicate Invariant(s: Session) {
    && Dialog.Valid(s.dialog)
    && (s.awake <==> s.lastInteraction.Some?)
    && (s.lastSpeech.Some? <==> s.commandText != "")
    && (s.lastSpeech.Some? ==> s.awake && s.lastInteraction == s.lastSpeech)
  }

  /** The greeting spoken on waking up. */
  function WakeGreeting(clock: Option<Registers>, name: string): string {
    TimeGreeting(clock) + " " + name + ", बोलिए"
  }

  /** Wake words are matched by containment, so the shortest one decides. */
  lemma WakeWordIsSun(text: string)
    ensures ContainsAny(text, WakeWords) <==> Contains(text, "सुन")
  {
    if ContainsAny(text, WakeWords) {
      var k :| 0 <= k < |WakeWords| && Contains(text, WakeWords[k]);
      if k == 0 {
        assert "सुनो" == "सुन" + "ो";
        ContainsParts("सुन", "ो");
        ContainsTransitive(text, "सुनो", "सुन");
      } else if k == 2 {
        assert "सुनो जी" == "सुन" + "ो जी";
        ContainsParts("सुन", "ो जी");
        ContainsTransitive(text, "सुनो जी", "सुन");
      }
    }
    if Contains(text, "सुन") {
      assert Contains(text, WakeWords[1]);
    }
  }

  /** The pause after the last utterance is long enough to commit it. */
  predicate SilenceElapsed(s: Session, now: int) {
    s.awake && s.lastSpeech.Some? && now - s.lastSpeech.value > SilenceTimeout
  }

  /** The inactivity check: asleep again after `ActiveTimeout` without a
      committed turn, without a closing remark. */
  function SleepIfIdle(s: Session, now: int): (s': Session)
    ensures s.awake && s.lastInteraction.Some? && now - s.lastInteraction.value > ActiveTimeout ==>
              s' == s.(awake := false, lastInteraction := None)
    ensures !(s.awake && s.lastInteraction.Some? && now - s.lastInteraction.value > ActiveTimeout) ==>
              s' == s
  {
    if s.awake && s.lastInteraction.Some? && now - s.lastInteraction.value > ActiveTimeout then
      s.(awake := false, lastInteraction := None)
    else s
  }

  /** The commit of the pending command once the pause has elapsed: the
      joke's answer if one is awaited, otherwise classification and the
      handler's reply, then sleep on `EXIT`. `later` is the clock read
      after the reply has been spoken. */
  function Commit(s: Session, later: int, env: Env): (r: Result<Turn, Fault>)
    requires env.jokePick < |Jokes|
    ensures r.Ok? ==> r.value.next.commandText == "" && r.value.next.lastSpeech.None? && r.value.reset
    ensures r.Ok? && s.dialog.jokeMode && s.commandText != "" ==>
              && s.dialog.currentJoke.Some?
              && r.value.spoken == [Say(GuessPhrase), Say(s.dialog.currentJoke.value.answer)]
              && !r.value.next.dialog.jokeMode
              && r.value.next.lastInteraction == s.lastInteraction
    ensures s.dialog.jokeMode && s.commandText != "" ==>
              && (r.Ok? <==> s.dialog.currentJoke.Some?)
              && (r.Ok? ==> r.value.next == s.(dialog := s.dialog.(jokeMode := false), commandText := "",
                                                lastSpeech := None))
    ensures !(s.dialog.jokeMode && s.commandText != "") ==>
              var h := HandleIntent(GetIntent(s.commandText), s.commandText, s.dialog, env);
              && (r.Ok? <==> h.Ok?)
              && (r.Ok? ==> r.value.spoken == [h.value.reply] && r.value.next.dialog == h.value.state)
              && (r.Err? ==> r.error == h.error)
    ensures r.Ok? && !(s.dialog.jokeMode && s.commandText != "") && GetIntent(s.commandText) != Exit ==>
              r.value.next.awake == s.awake && r.value.next.lastInteraction == Some(later)
    ensures r.Ok? && !(s.dialog.jokeMode && s.commandText != "") && GetIntent(s.commandText) == Exit ==>
              !r.value.next.awake && r.value.next.lastInteraction.None?
  {
    if s.dialog.jokeMode && s.commandText != "" then
      match s.dialog.currentJoke
      case None => Err(MissingJoke)
      case Some(joke) =>
        var next := s.(dialog := s.dialog.(jokeMode := false), commandText := "", lastSpeech := None);
        Ok(Turn(next, [Say(GuessPhrase), Say(joke.answer)], true))
    else
      var intent := GetIntent(s.commandText);
      match HandleIntent(intent, s.commandText, s.dialog, env)
      case Err(f) => Err(f)
      case Ok(h) =>
        var s2 := s.(dialog := h.state, commandText := "", lastSpeech := None, lastInteraction := Some(later));
        var s3 := if intent == Exit then s2.(awake := false, lastInteraction := None) else s2;
        Ok(Turn(SleepIfIdle(s3, later), [h.reply], true))
  }

  /** One pass of the loop body. `heard` is the recognizer's final text, or
      `None` when the audio chunk completed no utterance; `now` is the clock
      read when the chunk was handled and `later` the one after a reply has
      been spoken. */
  function Step(s: Session, heard: Option<string>, now: int, later: int, env: Env): (r: Result<Turn, Fault>)
    requires env.jokePick < |Jokes|
    ensures r.Err? ==> SilenceElapsed(s, now) && heard.None?
    ensures !s.awake && (heard.None? || !ContainsAny(Strip(heard.value), WakeWords)) ==>
              r == Ok(Turn(s, [], false))
    ensures !s.awake && heard.Some? && ContainsAny(Strip(heard.value), WakeWords) ==>
              r == Ok(Turn(s.(awake := true, lastInteraction := Some(now)),
                           [Say(WakeGreeting(env.clock, s.dialog.userName))], false))
    ensures heard.Some? && Strip(heard.value) == "" ==> r == Ok(Turn(s, [], false))
    ensures s.awake && heard.Some? && Strip(heard.value) != "" ==>
              r == Ok(Turn(s.(commandText := Strip(heard.value), lastSpeech := Some(now),
                              lastInteraction := Some(now)), [], false))
    ensures heard.None? && SilenceElapsed(s, now) ==> r == Commit(s, later, env)
    ensures heard.None? && !SilenceElapsed(s, now) ==> r == Ok(Turn(SleepIfIdle(s, now), [], false))
  {
    if heard.Some? && Strip(heard.value) == "" then
      Ok(Turn(s, [], false))
    else if heard.Some? && !s.awake then
      if ContainsAny(Strip(heard.value), WakeWords) then
        var greeting := WakeGreeting(env.clock, s.dialog.userName);
        Ok(Turn(s.(awake := true, lastInteraction := Some(now)), [Say(greeting)], false))
      else Ok(Turn(s, [], false))
    else
      var s1 :=
        if heard.Some? then
          s.(commandText := Strip(heard.value), lastSpeech := Some(now), lastInteraction := Some(now))
        else s;
      if SilenceElapsed(s1, now) then Commit(s1, later, env)
      else Ok(Turn(SleepIfIdle(s1, now), [], false))
  }

  // ---------------------------------------------------------------------
  // Properties of the loop
  // ---------------------------------------------------------------------

  /** The start state satisfies the invariant. */
  lemma StartIsValid()
    ensures Invariant(Start)
  {
  }

  /** Every iteration keeps the invariant, and from a state that keeps it the
      only modelled exception that can end the program is `%` by zero. */
  lemma StepKeepsInvariant(s: Session, heard: Option<string>, now: int, later: int, env: Env)
    requires env.jokePick < |Jokes|
    requires Invariant(s)
    ensures Step(s, heard, now, later, env).Ok? ==> Invariant(Step(s, heard, now, later, env).value.next)
    ensures Step(s, heard, now, later, env).Err? ==> Step(s, heard, now, later, env).error == ModuloByZero
  {
    if heard.None? && SilenceElapsed(s, now) && !(s.dialog.jokeMode && s.commandText != "") {
      HandleIntentKeepsValid(GetIntent(s.commandText), s.commandText, s.dialog, env);
    }
  }

  /** After an idle period longer than `ActiveTimeout` with nothing pending,
      the session falls asleep without saying anything. */
  lemma IdleSessionSleeps(s: Session, now: int, later: int, env: Env)
    requires env.jokePick < |Jokes|
    requires s.awake && s.lastSpeech.None?
    requires s.lastInteraction.Some? && now - s.lastInteraction.value > ActiveTimeout
    ensures Step(s, None, now, later, env) == Ok(Turn(s.(awake := false, lastInteraction := None), [], false))
  {
  }

  /** Committing an `EXIT` command puts the session to sleep; the calculator
      is not reset, so a calculation interrupted by `EXIT` is still pending
      when the session wakes up again. */
  lemma ExitKeepsCalculator(s: Session, now: int, later: int, env: Env)
    requires env.jokePick < |Jokes|
    requires SilenceElapsed(s, now) && !s.dialog.jokeMode
    requires GetIntent(s.commandText) == Exit
    requires s.dialog.calcMode && (s.dialog.calcStep == 1 || s.dialog.calcStep == 2)
    requires FirstNumber(s.commandText).None?
    ensures Step(s, None, now, later, env).Ok?
    ensures var t := Step(s, None, now, later, env).value;
            && !t.next.awake && t.next.lastInteraction.None?
            && t.spoken == [Say(ExitReply)]
            && CalcPart(t.next.dialog) == CalcPart(s.dialog)
  {
    CalculatorNumberTurn(Exit, s.commandText, s.dialog, env);
  }

  /** A joke over three iterations: committing a `JOKE` command asks the
      question; whatever is heard next is, once the pause has elapsed,
      answered with the guess phrase and the answer to that same joke. */
  lemma JokeIsRevealedNextTurn(s: Session, guess: string, t1: int, l1: int, t2: int, t3: int, l3: int, env: Env)
    requires env.jokePick < |Jokes|
    requires Invariant(s)
    requires SilenceElapsed(s, t1) && !s.dialog.jokeMode
    requires GetIntent(s.commandText) == Joke
    requires Strip(guess) != ""
    requires t3 - t2 > SilenceTimeout
    ensures Step(s, None, t1, l1, env).Ok?
    ensures var a := Step(s, None, t1, l1, env).value;
            && a.spoken == [Say(Jokes[env.jokePick].question)]
            && Step(a.next, Some(guess), t2, t2, env).Ok?
            && var b := Step(a.next, Some(guess), t2, t2, env).value;
               && b.spoken == []
               && Step(b.next, None, t3, l3, env).Ok?
               && Step(b.next, None, t3, l3, env).value.spoken
                  == [Say(GuessPhrase), Say(Jokes[env.jokePick].answer)]
               && !Step(b.next, None, t3, l3, env).value.next.dialog.jokeMode
  {
    var a := Step(s, None, t1, l1, env).value;
    assert a.next.awake && a.next.dialog.jokeMode;
    assert a.next.dialog.currentJoke == Some(Jokes[env.jokePick]);
    var b := Step(a.next, Some(guess), t2, t2, env).value;
    assert b.next.dialog == a.next.dialog;
    assert SilenceElapsed(b.next, t3);
  }
}

=== FILE: numbers.dfy ===
/**
 Number recognition for the calculator: the `hindi_numbers` lexicon of the
 number words for 1..50, and the scan `handle_intent` performs over the
 whitespace-separated words of an utterance, keeping each word that is all
 digits or a lexicon word, converted to its value.
 */
module Numbers {
  import opened Wrappers
  import opened Text

  /** `hindi_numbers.get(w)`: the value of a number word, written as the
      dictionary display lists it. */
  function Lexicon(w: string): (o: Option<nat>)
    ensures o.Some? ==> 1 <= o.value <= 50
  {
    match w
    case "एक" => Some(1)
    case "दो" => Some(2)
    case "तीन" => Some(3)
    case "चार" => Some(4)
    case "पाँच" => Some(5)
    case "छह" => Some(6)
    case "सात" => Some(7)
    case "आठ" => Some(8)
    case "नौ" => Some(9)
    case "दस" => Some(10)
    case "ग्यारह" => Some(11)
    case "बारह" => Some(12)
    case "तेरह" => Some(13)
    case "चौदह" => Some(14)
    case "पंद्रह" => Some(15)
    case "सोलह" => Some(16)
    case "सत्रह" => Some(17)
    case "अठारह" => Some(18)
    case "उन्नीस" => Some(19)
    case "बीस" => Some(20)
    case "इक्कीस" => Some(21)
    case "बाईस" => Some(22)
    case "तेईस" => Some(23)
    case "चौबीस" => Some(24)
    case "पच्चीस" => Some(25)
    case "छब्बीस" => Some(26)
    case "सत्ताईस" => Some(27)
    case "अट्ठाईस" => Some(28)
    case "उनतीस" => Some(29)
    case "तीस" => Some(30)
    case "इकतीस" => Some(31)
    case "बत्तीस" => Some(32)
    case "तैंतीस" => Some(33)
    case "चौंतीस" => Some(34)
    case "पैंतीस" => Some(35)
    case "छत्तीस" => Some(36)
    case "सैंतीस" => Some(37)
    case "अड़तीस" => Some(38)
    case "उनतालीस" => Some(39)
    case "चालीस" => Some(40)
    case "इकतालीस" => Some(41)
    case "बयालीस" => Some(42)
    case "तैंतालीस" => Some(43)
    case "चवालीस" => Some(44)
    case "पैंतालीस" => Some(45)
    case "छियालीस" => Some(46)
    case "सैंतालीस" => Some(47)
    case "अड़तालीस" => Some(48)
    case "उनचास" => Some(49)
    case "पचास" => Some(50)
    case _ => None
  }

  /** The key of `hindi_numbers` whose value is `n`. */
  function NumberWord(n: nat): string
    requires 1 <= n <= 50
  {
    match n
    case 1 => "एक"
    case 2 => "दो"
    case 3 => "तीन"
    case 4 => "चार"
    case 5 => "पाँच"
    case 6 => "छह"
    case 7 => "सात"
    case 8 => "आठ"
    case 9 => "नौ"
    case 10 => "दस"
    case 11 => "ग्यारह"
    case 12 => "बारह"
    case 13 => "तेरह"
    case 14 => "चौदह"
    case 15 => "पंद्रह"
    case 16 => "सोलह"
    case 17 => "सत्रह"
    case 18 => "अठारह"
    case 19 => "उन्नीस"
    case 20 => "बीस"
    case 21 => "इक्कीस"
    case 22 => "बाईस"
    case 23 => "तेईस"
    case 24 => "चौबीस"
    case 25 => "पच्चीस"
    case 26 => "छब्बीस"
    case 27 => "सत्ताईस"
    case 28 => "अट्ठाईस"
    case 29 => "उनतीस"
    case 30 => "तीस"
    case 31 => "इकतीस"
    case 32 => "बत्तीस"
    case 33 => "तैंतीस"
    case 34 => "चौंतीस"
    case 35 => "पैंतीस"
    case 36 => "छत्तीस"
    case 37 => "सैंतीस"
    case 38 => "अड़तीस"
    case 39 => "उनतालीस"
    case 40 => "चालीस"
    case 41 => "इकतालीस"
    case 42 => "बयालीस"
    case 43 => "तैंतालीस"
    case 44 => "चवालीस"
    case 45 => "पैंतालीस"
    case 46 => "छियालीस"
    case 47 => "सैंतालीस"
    case 48 => "अड़तालीस"
    case 49 => "उनचास"
    case 50 => "पचास"
  }

  /** The lexicon maps the word for `n` to `n`, for every `n` in 1..50. */
  lemma LexiconCoversOneToFifty(n: nat)
    requires 1 <= n <= 50
    ensures Lexicon(NumberWord(n)) == Some(n)
  {
  }

  /** The lexicon gives `n` only to the word for `n`: it is a bijection
      between fifty words and 1..50. */
  lemma LexiconInjective(w: string)
    requires Lexicon(w).Some?
    ensures NumberWord(Lexicon(w).value) == w
  {
  }

  /** A word the calculator accepts as a number: `w.isdigit() or w in hindi_numbers`. */
  predicate IsNumberToken(w: string) {
    IsDigits(w) || Lexicon(w).Some?
  }

  /** The value of a number word: `int(w)` for digits, else its lexicon entry. */
  function TokenValue(w: string): nat
    requires IsNumberToken(w)
  {
    if IsDigits(w) then DigitsValue(w) else Lexicon(w).value
  }

  /** The `numbers` list: the values of the number tokens of `ws`, in order. */
  function NumberValues(ws: seq<string>): (ns: seq<nat>)
    ensures |ns| <= |ws|
    ensures ns == [] <==> forall i :: 0 <= i < |ws| ==> !IsNumberToken(ws[i])
    ensures forall k :: 0 <= k < |ws| && IsNumberToken(ws[k]) && (forall j :: 0 <= j < k ==> !IsNumberToken(ws[j]))
              ==> ns != [] && ns[0] == TokenValue(ws[k])
  {
    if ws == [] then []
    else
      var rest := NumberValues(ws[1..]);
      if IsNumberToken(ws[0]) then [TokenValue(ws[0])] + rest else rest
  }

  /** The number the calculator takes from an utterance: `numbers[0]` when
      `numbers` is non-empty. */
  function FirstNumber(text: string): (o: Option<nat>)
    ensures o.None? <==> forall i :: 0 <= i < |Words(text)| ==> !IsNumberToken(Words(text)[i])
  {
    var ns := NumberValues(Words(text));
    if ns == [] then None else Some(ns[0])
  }

  /** The operand is the value of the first number token of the utterance. */
  lemma FirstNumberIsFirstToken(text: string, k: nat)
    requires k < |Words(text)| && IsNumberToken(Words(text)[k])
    requires forall j :: 0 <= j < k ==> !IsNumberToken(Words(text)[j])
    ensures FirstNumber(text) == Some(TokenValue(Words(text)[k]))
  {
  }

  /** An utterance that is a single word yields that word's value. */
  lemma FirstNumberOfWord(w: string)
    requires IsWord(w) && IsNumberToken(w)
    ensures FirstNumber(w) == Some(TokenValue(w))
  {
    WordsUnwords([w]);
  }

  /** The word for three parses to 3. */
  lemma ThreeParses()
    ensures FirstNumber("तीन") == Some(3)
  {
    var w := "तीन";
    assert Lexicon(w) == Some(3);
    assert !IsDigits(w) by { assert !IsDigit(w[0]); }
    assert TokenValue(w) == 3;
    FirstNumberOfWord(w);
  }

  /** The digit string "3" parses to 3 as well. */
  lemma DigitThreeParses()
    ensures FirstNumber("3") == Some(3)
  {
    assert DigitsValue("3") == 3;
    FirstNumberOfWord("3");
  }
}

=== FILE: text.dfy ===
/**
 Text utilities mirroring the Python string operations the dialog engine
 relies on: substring containment (`sub in s`), `str.split()` with no
 argument, `str.strip()`, `str.isdigit()` restricted to ASCII digits,
 `int(word)` on such a digit string and `str(n)` on an integer.
 */
module Text {

  /** The characters Python's `str.isspace()` accepts; `split()` and
      `strip()` without arguments break and trim on exactly these. */
  predicate IsSpace(c: char) {
    || ('\t' <= c <= '\r')
    || ('\U{1C}' <= c <= '\U{1F}')
    || c == ' '
    || c == '\U{85}'
    || c == '\U{A0}'
    || c == '\U{1680}'
    || ('\U{2000}' <= c <= '\U{200A}')
    || c == '\U{2028}'
    || c == '\U{2029}'
    || c == '\U{202F}'
    || c == '\U{205F}'
    || c == '\U{3000}'
  }

  /** Every character of `s` is whitespace (this includes the empty string). */
  predicate AllSpace(s: string) {
    forall i :: 0 <= i < |s| ==> IsSpace(s[i])
  }

  /** A token as `split()` produces it: non-empty, without whitespace. */
  predicate IsWord(w: string) {
    |w| > 0 && forall i :: 0 <= i < |w| ==> !IsSpace(w[i])
  }

  /** `sub` occurs in `s` starting at index `i`. */
  predicate OccursAt(s: string, sub: string, i: int) {
    0 <= i && i + |sub| <= |s| && s[i..i + |sub|] == sub
  }

  /** Python's `sub in s` on strings. */
  predicate Contains(s: string, sub: string) {
    exists i | 0 <= i <= |s| :: OccursAt(s, sub, i)
  }

  /** `any(w in s for w in words)`. */
  predicate ContainsAny(s: string, words: seq<string>) {
    exists k :: 0 <= k < |words| && Contains(s, words[k])
  }

  /** Containment is transitive: a text holding `mid` holds everything `mid` holds. */
  lemma ContainsTransitive(s: string, mid: string, sub: string)
    requires Contains(s, mid) && Contains(mid, sub)
    ensures Contains(s, sub)
  {
    var i :| 0 <= i <= |s| && OccursAt(s, mid, i);
    var j :| 0 <= j <= |mid| && OccursAt(mid, sub, j);
    assert i + |mid| <= |s| && s[i..i + |mid|] == mid;
    assert j + |sub| <= |mid| && mid[j..j + |sub|] == sub;
    var outer := s[i + j..i + j + |sub|];
    var inner := mid[j..j + |sub|];
    forall k | 0 <= k < |sub|
      ensures outer[k] == inner[k]
    {
      assert mid[j + k] == s[i + j + k];
    }
    assert outer == inner;
    assert OccursAt(s, sub, i + j);
  }

  /** Every string contains itself. */
  lemma ContainsSelf(s: string)
    ensures Contains(s, s)
  {
    assert OccursAt(s, s, 0);
  }

  /** A string contains every prefix and every suffix of any split of it. */
  lemma ContainsParts(a: string, b: string)
    ensures Contains(a + b, a) && Contains(a + b, b)
  {
    assert OccursAt(a + b, a, 0);
    assert OccursAt(a + b, b, |a|);
  }

  /** A text cannot contain a word that has a character the text lacks. */
  lemma MissingCharExcludes(s: string, sub: string, c: nat)
    requires c < |sub| && sub[c] !in s
    ensures !Contains(s, sub)
  {
  }

  /** A text contains none of a list of words that are all longer than it. */
  lemma LongerWordsExcluded(s: string, words: seq<string>)
    requires forall k :: 0 <= k < |words| ==> |words[k]| > |s|
    ensures !ContainsAny(s, words)
  {
  }

  // ---------------------------------------------------------------------
  // str.split()
  // ---------------------------------------------------------------------

  /** Number of leading whitespace characters of `s`. */
  function LeadingSpaces(s: string): (n: nat)
    ensures n <= |s|
    ensures AllSpace(s[..n])
    ensures n == |s| || !IsSpace(s[n])
  {
    if s != [] && IsSpace(s[0]) then
      var m := LeadingSpaces(s[1..]);
      assert s[1..][..m] == s[1..m + 1];
      1 + m
    else 0
  }

  /** Number of leading non-whitespace characters of `s`. */
  function LeadingWordLength(s: string): (n: nat)
    ensures n <= |s|
    ensures forall i :: 0 <= i < n ==> !IsSpace(s[i])
    ensures n == |s| || IsSpace(s[n])
  {
    if s != [] && !IsSpace(s[0]) then 1 + LeadingWordLength(s[1..]) else 0
  }

  /** Python's `s.split()`: the maximal runs of non-whitespace characters,
      in order. */
  function Words(s: string): (ws: seq<string>)
    ensures forall k :: 0 <= k < |ws| ==> IsWord(ws[k])
    decreases |s|
  {
    var t := s[LeadingSpaces(s)..];
    if t == [] then []
    else
      var n := LeadingWordLength(t);
      [t[..n]] + Words(t[n..])
  }

  /** A text has no tokens exactly when it is all whitespace. */
  lemma WordsEmpty(s: string)
    ensures Words(s) == [] <==> AllSpace(s)
  {
    var a := LeadingSpaces(s);
    if a == |s| {
      assert s == s[..a];
    } else {
      assert !IsSpace(s[a]);
    }
  }

  /** Joins words with single spaces: `" ".join(ws)`. */
  function Unwords(ws: seq<string>): string {
    if ws == [] then ""
    else if |ws| == 1 then ws[0]
    else ws[0] + " " + Unwords(ws[1..])
  }

  lemma LeadingSpacesOfWord(w: string, rest: string)
    requires IsWord(w)
    ensures LeadingSpaces(w + rest) == 0
  {
    assert (w + rest)[0] == w[0];
  }

  lemma {:induction false} LeadingWordLengthOfWord(w: string, rest: string)
    requires IsWord(w)
    requires rest == [] || IsSpace(rest[0])
    ensures LeadingWordLength(w + rest) == |w|
    decreases |w|
  {
    assert (w + rest)[0] == w[0];
    assert (w + rest)[1..] == w[1..] + rest;
    if |w| == 1 {
      assert w[1..] + rest == rest;
    } else {
      LeadingWordLengthOfWord(w[1..], rest);
    }
  }

  /** Leading whitespace does not change the tokens. */
  lemma WordsSkipSpace(c: char, s: string)
    requires IsSpace(c)
    ensures Words([c] + s) == Words(s)
  {
    var t := [c] + s;
    assert t[1..] == s;
    assert LeadingSpaces(t) == 1 + LeadingSpaces(s);
    assert t[LeadingSpaces(t)..] == s[LeadingSpaces(s)..];
  }

  /** Any run of leading whitespace does not change the tokens. */
  lemma {:induction false} WordsSkipSpaces(sep: string, s: string)
    requires AllSpace(sep)
    ensures Words(sep + s) == Words(s)
    decreases |sep|
  {
    if sep != [] {
      var c, tail := sep[0], sep[1..];
      assert IsSpace(c);
      assert AllSpace(tail) by {
        forall i | 0 <= i < |tail| ensures IsSpace(tail[i]) {
          assert tail[i] == sep[i + 1];
        }
      }
      assert sep + s == [c] + (tail + s);
      WordsSkipSpace(c, tail + s);
      WordsSkipSpaces(tail, s);
    } else {
      assert sep + s == s;
    }
  }

  /** A token followed by whitespace is the first token, and splitting goes
      on with what follows the whitespace. */
  lemma WordsCons(w: string, sep: string, rest: string)
    requires IsWord(w) && |sep| > 0 && AllSpace(sep)
    ensures Words(w + sep + rest) == [w] + Words(rest)
  {
    var s := w + sep + rest;
    assert s == w + (sep + rest);
    assert (sep + rest)[0] == sep[0];
    LeadingSpacesOfWord(w, sep + rest);
    LeadingWordLengthOfWord(w, sep + rest);
    assert s[LeadingSpaces(s)..] == s;
    assert s[..|w|] == w;
    assert s[|w|..] == sep + rest;
    WordsSkipSpaces(sep, rest);
  }

  /** Splitting undoes joining with single spaces: `" ".join(ws).split() == ws`
      whenever every element is a proper token. */
  lemma {:induction false} WordsUnwords(ws: seq<string>)
    requires forall k :: 0 <= k < |ws| ==> IsWord(ws[k])
    ensures Words(Unwords(ws)) == ws
    decreases |ws|
  {
    if ws == [] {
    } else if |ws| == 1 {
      var w := ws[0];
      LeadingSpacesOfWord(w, "");
      LeadingWordLengthOfWord(w, "");
      assert w + "" == w;
      assert w[LeadingSpaces(w)..] == w;
      assert w[|w|..] == [];
    } else {
      var w := ws[0];
      var rest := Unwords(ws[1..]);
      var s := w + " " + rest;
      assert s == w + (" " + rest);
      LeadingSpacesOfWord(w, " " + rest);
      LeadingWordLengthOfWord(w, " " + rest);
      assert s[LeadingSpaces(s)..] == s;
      assert s[..|w|] == w;
      assert s[|w|..] == [' '] + rest;
      WordsSkipSpace(' ', rest);
      WordsUnwords(ws[1..]);
    }
  }

  // ---------------------------------------------------------------------
  // str.strip()
  // ---------------------------------------------------------------------

  /** Number of trailing whitespace characters of `s`. */
  function TrailingSpaces(s: string): (n: nat)
    ensures n <= |s|
    ensures AllSpace(s[|s| - n..])
    ensures n == |s| || !IsSpace(s[|s| - n - 1])
  {
    if s != [] && IsSpace(s[|s| - 1]) then
      var m := TrailingSpaces(s[..|s| - 1]);
      assert AllSpace(s[|s| - (1 + m)..]) by {
        var t := s[|s| - (1 + m)..];
        forall j | 0 <= j < |t| ensures IsSpace(t[j]) {
          if j < m {
            assert t[j] == s[..|s| - 1][|s| - 1 - m..][j];
          }
        }
      }
      1 + m
    else 0
  }

  /** Python's `s.strip()`: the text with surrounding whitespace removed. */
  function Strip(s: string): (r: string)
    ensures r == [] <==> AllSpace(s)
    ensures r != [] ==> !IsSpace(r[0]) && !IsSpace(r[|r| - 1])
    ensures AllSpace(s[..LeadingSpaces(s)])
    ensures LeadingSpaces(s) + |r| <= |s|
    ensures s[LeadingSpaces(s)..LeadingSpaces(s) + |r|] == r
    ensures AllSpace(s[LeadingSpaces(s) + |r|..])
  {
    var a := LeadingSpaces(s);
    if a == |s| then
      assert s == s[..a];
      []
    else
      var b := TrailingSpaces(s);
      assert !AllSpace(s) by { assert !IsSpace(s[a]); }
      assert !AllSpace(s[a..]) by { assert s[a..][0] == s[a]; }
      s[a..|s| - b]
  }

  /** Stripping twice is stripping once. */
  lemma StripIdempotent(s: string)
    ensures Strip(Strip(s)) == Strip(s)
  {
    var r := Strip(s);
    if r != [] {
      assert LeadingSpaces(r) == 0 by { assert !IsSpace(r[0]); }
      assert TrailingSpaces(r) == 0 by { assert !IsSpace(r[|r| - 1]); }
      assert r[0..] == r;
      assert r[..|r|] == r;
    }
  }

  // ---------------------------------------------------------------------
  // str.isdigit(), int(word), str(n)
  // ---------------------------------------------------------------------

  predicate IsDigit(c: char) {
    '0' <= c <= '9'
  }

  /** `w.isdigit()`, restricted to ASCII digits: non-empty and all digits. */
  predicate IsDigits(w: string) {
    |w| > 0 && forall i :: 0 <= i < |w| ==> IsDigit(w[i])
  }

  function DigitValue(c: char): (d: nat)
    requires IsDigit(c)
    ensures d < 10
  {
    (c as int) - ('0' as int)
  }

  function DigitChar(d: nat): (c: char)
    requires d < 10
    ensures IsDigit(c) && DigitValue(c) == d
  {
    ((d + '0' as int) as char)
  }

  /** Decimal value of a digit string, as `int(w)` computes it. */
  function DigitsValue(w: string): nat
    requires forall i :: 0 <= i < |w| ==> IsDigit(w[i])
  {
    if w == [] then 0
    else 10 * DigitsValue(w[..|w| - 1]) + DigitValue(w[|w| - 1])
  }

  /** `str(n)` for a natural number: its decimal digits, no leading zero. */
  function NatToString(n: nat): (s: string)
    ensures IsDigits(s)
    ensures DigitsValue(s) == n
    ensures |s| > 1 ==> s[0] != '0'
  {
    if n < 10 then
      [DigitChar(n)]
    else
      var p := NatToString(n / 10);
      var s := p + [DigitChar(n % 10)];
      assert s[..|s| - 1] == p;
      s
  }

  /** `str(i)` for an integer: a minus sign before the magnitude when negative. */
  function IntToString(i: int): (s: string)
    ensures |s| > 0
    ensures i < 0 <==> s[0] == '-'
    ensures i < 0 ==> s[1..] == NatToString(-i)
    ensures i >= 0 ==> s == NatToString(i)
  {
    if i < 0 then "-" + NatToString(-i) else NatToString(i)
  }

  /** Decimal rendering is injective on naturals: distinct numbers print differently. */
  lemma NatToStringInjective(m: nat, n: nat)
    requires NatToString(m) == NatToString(n)
    ensures m == n
  {
  }
}

=== FILE: wrappers.dfy ===
/** Optional values and fallible results used throughout the model. */
module Wrappers {

  /** A Python value that may be `None`. */
  datatype Option<+T> = None | Some(value: T)

  /** The outcome of a step that may raise an uncaught exception. */
  datatype Result<+R, +E> = Ok(value: R) | Err(error: E)
}
